=== FILE: README.md ===
# YOLO labeller backend: a Dafny model of its pure core

The backend (`app.py`) is a small FastAPI server behind a browser-based
bounding-box annotator. It opens an image folder or a YOLO dataset
(`images/<split>/`, `labels/<split>/`), lists its images, loads and saves one
YOLO label file per image, keeps a project-wide list of class names and a
library of detector models, runs a detector on an image, and exports the
whole project as a YOLO copy or as per-split JSON annotation lists.

This project models the decisions that code makes, as pure Dafny functions
over immutable values, and proves what the endpoints promise:

- `LabelCodec` (label_codec.dfy): the YOLO label file codec. This covers
  `read_yolo_labels`, `save_yolo_labels` and the geometry shared with the
  export's `bbox_yolo`.
- `Project` (project.dfy): `list_images`, the root and split choice of
  `open_project`, `change_split`, `project_info`, and the label paths of
  `get_labels`/`save_labels`.
- `Settings` (settings.dfy): `set_classes` and `import_model`.
- `Detector` (detector.dfy): model-id resolution and rectangle collection in
  `detect`.
- `Export` (export.dfy): the entry enumeration, the YOLO copy plan and the
  JSON grouping of `export_all`.
- `Host` (host.dfy): the filesystem as a value `Disk` of query functions, the
  `norm` path normalisation, and the shape of HTTP errors.
- `Text`, `Order` (text.dfy, order.dfy): the Python string operations the
  code relies on. These are `str.strip`, `str.split`, line iteration,
  `os.path.basename`, `os.path.splitext`, ASCII `lower`, string ordering and
  `sorted`.
- `Wrappers` (wrappers.dfy): `Option` and `Result`.

Modelling choices:

- **Globals become values.** The module globals `state`, `class_names` and
  `model_library` are passed in and returned.
- **Outside code becomes parameters.** This covers:
  - what the filesystem answers (`Disk`);
  - what `float()` makes of a token (`num`, with `None` for ValueError);
  - what `"%.6f"` prints (`fmt`);
  - what `yolo_root` detected (`detected`);
  - what the detector returns (`infer`);
  - whether ultralytics imported (`hasDetector`).
- **`int()` of a float truncates toward zero.** This is `LabelCodec.Trunc`,
  written out, because Dafny's `Floor` does not truncate negative values.
- **Reading splits lines on both "\n" and "\r".** A file opened in text mode
  uses universal newlines.
- **Coordinates are exact reals.** Python computes them in IEEE doubles;
  the model computes them over `real`, with no rounding (see "## Left out").
- **The round trip is exact only per value.** Over exact reals, saving and
  re-reading returns the boxes when every numeral written reads back as the
  value it was printed from (`LabelCodec.ExactLine`). This is assumed per
  written value, because no formatter is exact on all reals. Real `%.6f`
  rounds to six decimals. In `app.py` the double arithmetic of app.py:76-79
  and app.py:93-96 rounds as well, so even exact numerals need not give back
  the same boxes there.

## Model

| member | source | states |
|---|---|---|
| LabelCodec.Trunc | app.py:80 | `int()` of a float: the integer part, rounded toward zero for negative values as well |
| LabelCodec.DecodeYolo | app.py:75-81 | a label line (cx, cy, bw, bh normalised) denotes the pixel box whose width and height are bw·w and bh·h, centred at (cx·w, cy·h), with class int(c) |
| LabelCodec.EncodeBox | app.py:92-97 | the line written for a box carries class int(cid); it needs a non-zero image size |
| LabelCodec.EncodeBoxScales | app.py:93-96 | the written centre and size, multiplied back by the image width and height, are the box's pixel centre ((x1+x2)/2, (y1+y2)/2) and size (x2-x1, y2-y1) |
| LabelCodec.DecodeEncode | app.py:75-81 | decoding the encoding of a box gives back its exact corners, with its class passed through int() |
| LabelCodec.EncodeDecode | app.py:92-96 | encoding the decoding of a label line gives back the line |
| LabelCodec.ParseNumbers | app.py:74 | map(float, parts) succeeds iff float() accepts every token, giving their values in order; otherwise it raises on the first rejected token |
| LabelCodec.ReadLineCases | app.py:71-74 | a line is skipped iff it does not split into exactly 5 fields; a 5-field line with a token float() rejects fails; otherwise the line reads as (int(float(c)), cx, cy, bw, bh) |
| LabelCodec.ReadLinesCorrespondence | app.py:69-82 | a read fails iff some line is a 5-field line with a non-numeric token, and then with the token of the first such line; otherwise the boxes are exactly one per 5-field line, in file order, each the box its line denotes |
| LabelCodec.ReadLabels | app.py:65-68 | a missing or zero-byte label file reads as no box; any other file is read line by line |
| LabelCodec.SaveLabels | app.py:85-99 | saving no box leaves no file; saving boxes into a zero-sized image fails; saving boxes otherwise leaves a non-empty file |
| LabelCodec.SaveEmptyRemovesFile | app.py:87-90 | after saving an empty list, a read gives no box and has_label_file is false |
| LabelCodec.SavedLines | app.py:91-99 | the saved file has one line per box, in order, and line i has the five fields int(cid), cx, cy, bw, bh of box i |
| LabelCodec.ReadLineText | app.py:71-81 | a written line reads back as the label line it was written from, when its numerals read back exactly |
| LabelCodec.SaveThenRead | app.py:65-99 | saving boxes and reading them back gives the same boxes, classes through int(), when every numeral written reads back exactly; an empty list round-trips through a removed file, whatever the image size |
| Text.Strip | app.py:71 | str.strip(): the result is a slice of the input with only whitespace before and after it, itself neither starting nor ending with whitespace (so the cut is maximal on both sides), and empty iff the input is all whitespace |
| Text.Split | app.py:71 | str.split(): every field is a non-empty run without whitespace, and there is no field iff the input is all whitespace |
| Text.SplitSeparates | app.py:71 | str.split(): the input is its fields interleaved with runs of whitespace, with at least one whitespace character between consecutive fields, so the fields are the maximal non-whitespace runs |
| Text.SplitInterleave | app.py:71 | conversely, words separated by whitespace in that way are exactly what str.split() returns |
| Text.SplitJoinSpace | app.py:71 | splitting words joined by single spaces gives back the words |
| Text.LinesOfTerminated | app.py:69-70 | iterating over a file made of "\n"-terminated lines gives back those lines |
| Text.Basename | app.py:328 | os.path.basename: a suffix of the path containing no "/" |
| Text.BasenameAfterLastSlash | app.py:328 | the base name is everything after the path's last "/": the whole path, or a suffix preceded by "/" |
| Text.Stem | app.py:328 | os.path.splitext(name)[0]: a prefix of the name; when shorter, the cut is at the name's last dot, and the part kept is not made of dots only; when the whole name is kept, its last dot (if any) is at the start or preceded only by dots |
| Host.Norm | app.py:35-36 | norm(): the absolute path character by character, each backslash replaced by "/" and every other character kept, so no backslash is left |
| Order.Sort | app.py:30-32 | sorted(): the result is in Python string order and is a permutation of the input |
| Order.SortedUnique | app.py:30-32 | a multiset of strings has exactly one sorted arrangement |
| Project.ListImages | app.py:29-32 | the sorted list holds exactly the globbed names ending (case-insensitively) in .jpg, .jpeg or .png, each as often as globbed |
| Project.ListImagesIgnoresListingOrder | app.py:29-32 | the image list does not depend on the order in which the filesystem lists the directory |
| Project.PresentSplits | app.py:294-299 | the splits whose images directory exists, each once, in the order train, val, test: the subsequence of those three names whose directories exist |
| Project.ChooseRootCases | app.py:242-250 | the detected YOLO root is used iff one was detected and the mode is yolo, rfdetr or images; the folder's own images/ probe never changes the result |
| Project.ChooseSplit | app.py:257-259 | train if it has images; otherwise the first present split with images; otherwise the first present split; otherwise train |
| Project.OpenProject | app.py:236-273 | "Folder not found" iff the normalised folder is not a directory; otherwise the mode is kept and the root is chosen as in the row above; a dataset opens on the chosen split with its images, and a flat folder opens on train with its own images |
| Project.OpenProjectShowsImages | app.py:255-260 | an opened dataset shows a non-empty image list whenever one of its splits has images |
| Project.ChangeSplit | app.py:276-287 | no project gives 400; otherwise the requested split (train by default) with its images when its directory exists, else train with an empty list; root and mode unchanged |
| Project.ChangeSplitIdempotent | app.py:276-287 | repeating a split change gives the same state |
| Project.ChangeSplitFallback | app.py:284-286 | a missing split falls back to train with no images, even when train has images |
| Project.InfoSplits | app.py:290-300 | 400 without a project; project_info lists exactly the present splits of a dataset in the order train, val, test, and ["train"] for a flat folder |
| Project.OpenedSplitIsListed | app.py:255-264 | after opening, project_info lists the split the project opened on (when the dataset has at least one split) |
| Project.LabelPath | app.py:328-329 | the label file lies directly in `<root>/labels/<split>`, and its base name is the image's base name without extension, followed by ".txt" |
| Project.GetLabels | app.py:319-336 | 400 without a project, 404 "Image missing" iff the image is not a file; otherwise it succeeds iff the label file reads, failing with the codec's error, and gives the image size, the read boxes and has_label_file, which holds iff the label file exists and is non-empty |
| Project.SaveLabels | app.py:339-351 | 400 without a project, 404 iff the image is missing; otherwise it fails iff boxes were sent for a zero-sized image, and on success the disk is the old one with the image's label file replaced by what the codec saves for the boxes (removed iff no box was sent): every other file, directory test, listing and image size answers as before |
| Project.SaveThenGetLabels | app.py:319-351 | when every numeral written reads back exactly (`ExactLine`), save then load returns the saved boxes (classes through int()) and the image size, with has_label_file true iff a box was saved; an empty list needs no image size |
| Settings.CleanNamesStripped | app.py:362 | every kept name is non-empty and has no leading or trailing whitespace |
| Settings.CleanNamesEmpty | app.py:362-364 | no name is kept iff every sent name is blank |
| Settings.CleanNamesConcat | app.py:362 | cleaning keeps the order of the names |
| Settings.CleanNamesKeeps | app.py:362 | every non-blank name survives, stripped |
| Settings.CleanNamesFrom | app.py:362 | every kept name is the stripped form of a sent one |
| Settings.CleanNamesIdempotent | app.py:362 | sending the stored list again stores the same list |
| Settings.SetClasses | app.py:359-366 | rejected with 400 "Class names cannot be empty" iff every name is blank; otherwise the cleaned, non-empty list, each name non-empty and stripped |
| Settings.ClassesAfter | app.py:362-365 | a rejected request leaves the previous class list unchanged; an accepted one stores the cleaned list, which is non-empty and holds non-empty, stripped names |
| Settings.ImportModel | app.py:226-233 | 400 iff the normalised path is not a file; otherwise the path is selected and in the library, the old library is a prefix of the new one, at most one entry is added, none if it was already listed, and a library without duplicates stays without duplicates |
| Settings.ImportModelIdempotent | app.py:231-232 | importing the same model twice leaves the library as importing it once |
| Detector.ResolveModel | app.py:440-453 | the model id is the model file's path, the bare name, the first library entry or "yolo26m.pt"; the request is refused with 404 "Model not found" iff the stripped name is non-empty, contains "/" or "\\", and names no file |
| Detector.ResolveModelCases | app.py:444-451 | resolution order: an existing file first, then a bare name, then for a blank name the first library entry, or "yolo26m.pt" when the library is empty |
| Detector.BareNameResolves | app.py:447-449 | a name without a path separator is never refused |
| Detector.Rects | app.py:461-466 | every reported rectangle carries the requested class |
| Detector.RectsConcat | app.py:462-466 | rectangles come out in the order the model reports them |
| Detector.RectsCount | app.py:462-466 | one rectangle per reported box; a result without boxes contributes none |
| Detector.RectsOfOne | app.py:465-466 | the rectangle of a reported box has that box's corners x1, y1, x2, y2 and the requested class |
| Detector.Detect | app.py:435-467 | 400 iff ultralytics is missing, then 404 iff the image is not a file, then exactly the resolution error; otherwise the resolved model id and the rectangles of what that model reports for the normalised image at the requested confidence, one per box, each with the requested class |
| Export.EntriesShape | app.py:477-490 | in a dataset, the entries of each split are exactly that split's images with their label paths, for the present splits only, the entries of train come before those of val and those before test, and their count is the image total; in a flat folder, every image under train |
| Export.CopiesImage | app.py:493-496 | in YOLO format every entry's image is copied to `<out>/images/<split>/<basename>` |
| Export.CopiesLabel | app.py:497-498 | every existing label file is copied to `<out>/labels/<split>/<basename>` |
| Export.CopiesOnlyEntries | app.py:492-498 | nothing else is copied: every copy, source and destination alike, is some entry's image copy to `<out>/images/<split>/<basename>` or the copy of its existing label file to `<out>/labels/<split>/<basename>` |
| Export.Annotations | app.py:508-514 | one annotation per box: class_id is the class of the line the label codec writes for the box, int(cid); bbox_xyxy is the four corners [x1, y1, x2, y2]; bbox_yolo is the four numbers [cx, cy, bw, bh] of that line, without its class; a zero-sized image with boxes fails |
| Export.EntryItem | app.py:505-521 | the JSON item of an entry has the image's base name, the entry's split and the image's width and height; it fails with the label read's error when the read fails, and otherwise iff the annotations fail, which is the zero-size failure |
| Export.EntryItemAnnotations | app.py:507-520 | a built item's annotations are the annotations of exactly the boxes the label file reads as |
| Export.AnnotationsBboxYolo | app.py:510-513 | bbox_yolo multiplied back by the image width and height is the box's pixel centre and size |
| Export.ExportedLinesMatchFile | app.py:505-514 | the i-th annotation comes from the i-th five-field line of the label file: its class_id is the line's int(class), its bbox_yolo is the line's cx, cy, bw, bh, and its bbox_xyxy is the corners of the box the line denotes |
| Export.AddItem | app.py:522 | setdefault-append: an existing split's group grows by the item at its end, a new split opens a group at the end, and no other group changes |
| Export.GroupBySplit | app.py:500-522 | the groups are keyed by the items' splits, each once, in order of first appearance |
| Export.GroupBySplitItems | app.py:500-522 | each group holds exactly its split's items, in entry order |
| Export.JsonItemsOk | app.py:501-521 | a successful JSON read holds one item per entry, in order, each the item built from that entry |
| Export.JsonItemsErr | app.py:501-521 | the JSON read fails iff some entry's item cannot be built, and then with the error of the first such entry, every earlier one having succeeded |
| Export.JsonCopiesAreYoloCopies | app.py:496-504 | the JSON export copies each image to the same place the YOLO export does |
| Export.ExportAll | app.py:470-528 | 400 without a project; YOLO format always succeeds with exactly the copy plan of the entries; JSON fails iff the item read fails, with its error, and otherwise copies every entry's image and groups the items by split, keyed by the entries' splits in first-appearance order; the count is the number of entries |

## Left out

- HTTP routing, CORS, static files, `get_image`, `system_info` and the Tk
  file dialogs: these are I/O with no decision to model.
- `yolo_root` and `ensure_labels`: the detected root is a parameter of
  `OpenProject`. Directory creation (`os.makedirs`, in `ensure_labels`,
  app.py:86, 494-495 and 502-503) is not modelled: the disk's directory tests
  stay as they were, so `open_project` of a labels directory created this
  way would answer "Folder not found" here but open it in `app.py`.
- `remove_image`, `restore_list`, `restore_image`: these endpoints move files
  between folders and are outside this model.
- The detector itself (ultralytics YOLO), its confidence filtering and
  `model_cache`: the boxes the model returns are a parameter, and the cache
  does not change which model id is used.
- PIL: image sizes are a parameter of the disk.
- Export's file writes (`shutil.copy2`, `json.dump`): the copies and the
  JSON groups are modelled, not the bytes written. The model also assumes
  that writing into the output directory does not change the project's own
  images or labels.
- LabelCodec.SaveThenRead: a weaker promise than "any boxes round-trip".
  `"%.6f"` rounds to six decimals, so the proof assumes that every numeral
  written reads back as its value (`ExactLine`).
- Project.SaveThenGetLabels: the same `ExactLine` assumption, for the same
  reason: it rests on LabelCodec.SaveThenRead.
- Floating point: coordinates are exact `real`s, so IEEE double rounding in
  `(cx - bw / 2) * w` (app.py:76-79), `((x1 + x2) / 2) / w` (app.py:93-96)
  and the export's bbox_yolo (app.py:510-513) is not modelled.
  LabelCodec.DecodeEncode, LabelCodec.EncodeDecode, LabelCodec.SaveThenRead,
  Project.SaveThenGetLabels, Export.AnnotationsBboxYolo and
  Export.ExportedLinesMatchFile hold over exact reals only. In doubles,
  decoding an encoding can differ from the box in the last bits.
- LabelCodec.ReadLabels: `float()` also accepts "inf" and "nan". Those
  values are whatever `num` returns, and no property of them is stated.
- A label file that is not valid UTF-8 makes the source raise. Files are
  modelled as character strings, so this case is not modelled.
- Project.ListImages: the glob pattern `*.*` and its hidden-file rule are
  part of `Disk.glob`. `lower()` is modelled for ASCII letters only.
- Project.SaveLabels: a rectangle is a 5-tuple here. A request whose
  rectangle has another number of numbers fails to unpack in the source, and
  that case is not modelled.
- Project.SaveLabels: `os.makedirs(os.path.dirname(label_path))`
  (app.py:86) creates `<root>/labels/<split>` on every call, even one that
  then fails on a zero-sized image. The model leaves directory tests
  unchanged, so a later `open_project` of that new directory would still
  answer "Folder not found" here. Files are also keyed by
  their path string, so "a//b" and "a/b" are different files here.
- Windows paths: `norm` turns backslashes into "/", and all other path
  handling assumes "/".
- Export.ExportAll: a JSON export that fails part-way has already copied the
  images of the entries before the failing one, and of the failing one itself
  (app.py:504 runs before app.py:507). The model returns only the error, not
  those copies.
- Session persistence, undo/redo history, box fusion and drag state: the
  backend has no code for them.

Three behaviours of `app.py` that the model keeps as written:

- Saving an empty box list deletes the label file (app.py:87-90); it does
  not write an empty file.
- A five-field line with a non-numeric token raises in `map(float, parts)`
  (app.py:74). The whole read fails, and `get_labels` (app.py:330) answers
  with an error.
- `detect` passes the confidence to the model (app.py:460) and filters
  nothing itself.

=== FILE: detector.dfy ===
/** The detect endpoint (app.py:435-467): which model a request names, and
    how the model's boxes become the rectangles the client receives. The
    model itself is a parameter: the boxes it returns for a model id, an
    image path and a confidence threshold. */
module Detector {
  import opened Wrappers
  import Text
  import LabelCodec
  import opened Host

  /** The model loaded when the request names none and the library is empty. */
  const FallbackModel: string := "yolo26m.pt"

  /** "/" or "\\" in the name: it is meant as a path, not a model name. */
  predicate LooksLikePath(raw: string) {
    '/' in raw || '\\' in raw
  }

  /** model_path: the normalised path of the stripped request field, or ""
      when that field is blank. */
  function ModelPath(raw: string, disk: Disk): (p: string)
    ensures raw == [] ==> p == []
    ensures p != [] ==> p == Norm(disk, raw)
  {
    if raw != [] then Norm(disk, raw) else []
  }

  /** The model id detect loads for the stripped model field `raw`. */
  function ResolveModel(raw: string, disk: Disk, library: seq<string>): (r: Result<string, ApiError>)
    ensures r.Ok? ==> r.value == ModelPath(raw, disk) || r.value == raw
                      || r.value in library || r.value == FallbackModel
    ensures r.Err? ==> r.error == Http(404, "Model not found")
    ensures r.Err? <==> raw != [] && LooksLikePath(raw) && !(Norm(disk, raw) != [] && IsFile(disk, Norm(disk, raw)))
  {
    var path := ModelPath(raw, disk);
    if path != [] && IsFile(disk, path) then
      Ok(path)
    else if raw != [] && !LooksLikePath(raw) then
      Ok(raw)
    else if raw == [] then
      Ok(if library != [] then library[0] else FallbackModel)
    else
      Err(Http(404, "Model not found"))
  }

  /** The resolution order: an existing model file first, then a bare model
      name, then, for a blank field, the first library entry or the fallback;
      only a path-like name that names no file is refused. */
  lemma ResolveModelCases(raw: string, disk: Disk, library: seq<string>)
    ensures raw != [] && IsFile(disk, Norm(disk, raw)) && Norm(disk, raw) != []
            ==> ResolveModel(raw, disk, library) == Ok(Norm(disk, raw))
    ensures raw != [] && !LooksLikePath(raw) && !IsFile(disk, Norm(disk, raw))
            ==> ResolveModel(raw, disk, library) == Ok(raw)
    ensures raw == [] && library != [] ==> ResolveModel(raw, disk, library) == Ok(library[0])
    ensures raw == [] && library == [] ==> ResolveModel(raw, disk, library) == Ok(FallbackModel)
  {
  }

  /** A bare model name is never refused, whatever is on disk. */
  lemma BareNameResolves(raw: string, disk: Disk, library: seq<string>)
    requires !LooksLikePath(raw)
    ensures ResolveModel(raw, disk, library).Ok?
  {
  }

  /** The model's output on one image: per result, the corners (b.xyxy) of
      its boxes, or None. */
  type Inference = seq<Option<seq<LabelCodec.Corners>>>

  datatype DetectReq = DetectReq(imagePath: string, modelPath: string, conf: real, cls: int)

  datatype Detection = Detection(rects: seq<LabelCodec.Box>, model: string)

  /** Every box of every result that has boxes, in order, with the requested
      class. */
  function Rects(results: Inference, cls: int): (r: seq<LabelCodec.Box>)
    ensures forall i :: 0 <= i < |r| ==> r[i].cls == cls as real
  {
    if results == [] then []
    else
      (match results[0]
       case None => []
       case Some(cs) => seq(|cs|, k requires 0 <= k < |cs| => LabelCodec.Box(cs[k].x1, cs[k].y1, cs[k].x2, cs[k].y2, cls as real)))
      + Rects(results[1..], cls)
  }

  /** The number of boxes the model reported. */
  function BoxCount(results: Inference): nat {
    if results == [] then 0
    else (if results[0].Some? then |results[0].value| else 0) + BoxCount(results[1..])
  }

  /** Rectangles come out in the order the model reports them: those of
      earlier results first. */
  lemma {:induction false} RectsConcat(a: Inference, b: Inference, cls: int)
    ensures Rects(a + b, cls) == Rects(a, cls) + Rects(b, cls)
    decreases |a|
  {
    if a == [] {
      assert a + b == b;
    } else {
      assert (a + b)[0] == a[0];
      assert (a + b)[1..] == a[1..] + b;
      RectsConcat(a[1..], b, cls);
    }
  }

  /** One rectangle per reported box; a result without boxes adds none. */
  lemma {:induction false} RectsCount(results: Inference, cls: int)
    ensures |Rects(results, cls)| == BoxCount(results)
    decreases |results|
  {
    if results != [] {
      RectsCount(results[1..], cls);
    }
  }

  /** The rectangle for one box keeps its corners. */
  lemma RectsOfOne(cs: seq<LabelCodec.Corners>, cls: int)
    ensures |Rects([Some(cs)], cls)| == |cs|
    ensures forall k :: 0 <= k < |cs| ==>
              Rects([Some(cs)], cls)[k] == LabelCodec.Box(cs[k].x1, cs[k].y1, cs[k].x2, cs[k].y2, cls as real)
  {
    assert [Some(cs)][1..] == [];
  }

  /** detect: refuse without the detector library or the image, resolve the
      model, then report its boxes. */
  function Detect(hasDetector: bool, req: DetectReq, disk: Disk, library: seq<string>,
                  infer: (string, string, real) -> Inference): (r: Result<Detection, ApiError>)
    ensures !hasDetector <==> r == Err(Http(400, "ultralytics not installed"))
    ensures hasDetector && !IsFile(disk, Norm(disk, req.imagePath)) <==> r == Err(Http(404, "Image not found"))
    ensures hasDetector && IsFile(disk, Norm(disk, req.imagePath)) ==>
              && (r.Err? <==> ResolveModel(Text.Strip(req.modelPath), disk, library).Err?)
              && (r.Err? ==> r == Err(ResolveModel(Text.Strip(req.modelPath), disk, library).error))
              && (r.Ok? ==> r.value.model == ResolveModel(Text.Strip(req.modelPath), disk, library).value)
    ensures r.Ok? ==>
              && r.value.rects == Rects(infer(r.value.model, Norm(disk, req.imagePath), req.conf), req.cls)
              && |r.value.rects| == BoxCount(infer(r.value.model, Norm(disk, req.imagePath), req.conf))
              && forall i :: 0 <= i < |r.value.rects| ==> r.value.rects[i].cls == req.cls as real
  {
    var img := Norm(disk, req.imagePath);
    if !hasDetector then
      Err(Http(400, "ultralytics not installed"))
    else if !IsFile(disk, img) then
      Err(Http(404, "Image not found"))
    else
      match ResolveModel(Text.Strip(req.modelPath), disk, library)
      case Err(e) => Err(e)
      case Ok(id) =>
        var results := infer(id, img, req.conf);
        RectsCount(results, req.cls);
        Ok(Detection(Rects(results, req.cls), id))
  }
}

=== FILE: export.dfy ===
/** export_all (app.py:470-528): the (split, image, label file) entries of
    the open project, and what is written for them: copies in the YOLO
    layout, or per-split JSON annotation lists. */
module Export {
  import opened Wrappers
  import Text
  import Order
  import opened LabelCodec
  import opened Host
  import opened Project

  // ---------------------------------------------------------------------------
  // Entries (app.py:476-490)

  datatype Entry = Entry(split: string, image: string, labelFile: string)

  /** The entries of one split directory, one per image, in listing order. */
  function SplitEntries(root: string, split: string, images: seq<string>): seq<Entry> {
    seq(|images|, i requires 0 <= i < |images| => Entry(split, images[i], LabelPath(root, split, images[i])))
  }

  /** The entries of the listed splits, split after split. */
  function EntriesOf(disk: Disk, root: string, splits: seq<string>): seq<Entry> {
    if splits == [] then []
    else SplitEntries(root, splits[0], ImagesIn(disk, SplitDir(root, splits[0]))) + EntriesOf(disk, root, splits[1..])
  }

  /** Whether the project has the structured layout (an "images" directory). */
  predicate Structured(disk: Disk, root: string) {
    disk.isDir(ImagesDir(root))
  }

  function Entries(disk: Disk, root: string): seq<Entry> {
    if Structured(disk, root) then EntriesOf(disk, root, PresentSplits(disk, root))
    else SplitEntries(root, "train", ImagesIn(disk, root))
  }

  /** The entries of one split, in order. */
  function OfSplit(es: seq<Entry>, split: string): (r: seq<Entry>)
    ensures |r| <= |es|
  {
    if es == [] then []
    else (if es[0].split == split then [es[0]] else []) + OfSplit(es[1..], split)
  }

  lemma {:induction false} OfSplitConcat(a: seq<Entry>, b: seq<Entry>, split: string)
    ensures OfSplit(a + b, split) == OfSplit(a, split) + OfSplit(b, split)
    decreases |a|
  {
    if a == [] {
      assert a + b == b;
    } else {
      assert (a + b)[0] == a[0];
      assert (a + b)[1..] == a[1..] + b;
      OfSplitConcat(a[1..], b, split);
      var h := if a[0].split == split then [a[0]] else [];
      var x, y := OfSplit(a[1..], split), OfSplit(b, split);
      assert OfSplit(a + b, split) == h + (x + y);
      assert OfSplit(a, split) == h + x;
      assert h + (x + y) == (h + x) + y;
    }
  }

  /** Entries that all belong to one split are all of that split's entries,
      and none of any other's. */
  lemma {:induction false} OfSplitUniform(es: seq<Entry>, split: string, s: string)
    requires forall i :: 0 <= i < |es| ==> es[i].split == split
    ensures OfSplit(es, s) == if s == split then es else []
    decreases |es|
  {
    if es != [] {
      assert forall i :: 0 <= i < |es[1..]| ==> es[1..][i] == es[i + 1];
      OfSplitUniform(es[1..], split, s);
      assert es == [es[0]] + es[1..];
    }
  }

  /** Among the entries of distinct splits, those of split `s` are the
      entries of its directory when it is listed, and none otherwise. */
  lemma {:induction false} EntriesOfSplit(disk: Disk, root: string, splits: seq<string>, s: string)
    requires Order.Distinct(splits)
    ensures OfSplit(EntriesOf(disk, root, splits), s)
            == if s in splits then SplitEntries(root, s, ImagesIn(disk, SplitDir(root, s))) else []
    decreases |splits|
  {
    if splits != [] {
      var first := SplitEntries(root, splits[0], ImagesIn(disk, SplitDir(root, splits[0])));
      OfSplitConcat(first, EntriesOf(disk, root, splits[1..]), s);
      OfSplitUniform(first, splits[0], s);
      Order.DistinctTail(splits);
      EntriesOfSplit(disk, root, splits[1..], s);
      assert s in splits <==> s == splits[0] || s in splits[1..];
    }
  }

  /** The total number of images over the listed splits. */
  function ImageCount(disk: Disk, root: string, splits: seq<string>): nat {
    if splits == [] then 0
    else |ImagesIn(disk, SplitDir(root, splits[0]))| + ImageCount(disk, root, splits[1..])
  }

  lemma {:induction false} EntriesOfCount(disk: Disk, root: string, splits: seq<string>)
    ensures |EntriesOf(disk, root, splits)| == ImageCount(disk, root, splits)
    ensures forall i :: 0 <= i < |EntriesOf(disk, root, splits)| ==>
              var e := EntriesOf(disk, root, splits)[i];
              e.split in splits && e.labelFile == LabelPath(root, e.split, e.image)
    decreases |splits|
  {
    if splits != [] {
      EntriesOfCount(disk, root, splits[1..]);
      var first := SplitEntries(root, splits[0], ImagesIn(disk, SplitDir(root, splits[0])));
      var rest := EntriesOf(disk, root, splits[1..]);
      forall i | |first| <= i < |first| + |rest|
        ensures (first + rest)[i] == rest[i - |first|]
      {
      }
    }
  }

  /** Entries whose splits never go back in the order train, val, test. */
  predicate EntriesInSplitOrder(es: seq<Entry>) {
    forall i, j :: 0 <= i < j < |es| ==> SplitRank(es[i].split) <= SplitRank(es[j].split)
  }

  /** Listing splits in order lists their entries in that order. */
  lemma {:induction false} EntriesOfInOrder(disk: Disk, root: string, splits: seq<string>)
    requires InSplitOrder(splits)
    ensures EntriesInSplitOrder(EntriesOf(disk, root, splits))
    decreases |splits|
  {
    if splits != [] {
      var tail := splits[1..];
      assert forall i :: 0 <= i < |tail| ==> tail[i] == splits[i + 1];
      EntriesOfInOrder(disk, root, tail);
      EntriesOfCount(disk, root, tail);
      var first := SplitEntries(root, splits[0], ImagesIn(disk, SplitDir(root, splits[0])));
      EntriesAfterFirst(first, EntriesOf(disk, root, tail), splits);
    }
  }

  lemma EntriesAfterFirst(first: seq<Entry>, rest: seq<Entry>, splits: seq<string>)
    requires splits != [] && InSplitOrder(splits)
    requires forall i :: 0 <= i < |first| ==> first[i].split == splits[0]
    requires forall i :: 0 <= i < |rest| ==> rest[i].split in splits[1..]
    requires EntriesInSplitOrder(rest)
    ensures EntriesInSplitOrder(first + rest)
  {
    var es := first + rest;
    forall i | 0 <= i < |rest| ensures SplitRank(splits[0]) < SplitRank(rest[i].split) {
      assert rest[i].split in splits[1..];
      var m :| 0 <= m < |splits[1..]| && splits[1..][m] == rest[i].split;
      assert splits[1..][m] == splits[m + 1];
    }
    forall i, j | 0 <= i < j < |es| ensures SplitRank(es[i].split) <= SplitRank(es[j].split) {
      if j < |first| {
        assert es[i] == first[i] && es[j] == first[j];
      } else if i < |first| {
        assert es[i] == first[i] && es[j] == rest[j - |first|];
      } else {
        assert es[i] == rest[i - |first|] && es[j] == rest[j - |first|];
      }
    }
  }

  /** The entries export_all enumerates: in a structured project, split by
      split in the order train, val, test, each split's images with the
      label file the annotator writes for them; in a flat project, every
      image of the root under "train". */
  lemma EntriesShape(disk: Disk, root: string)
    ensures Structured(disk, root) ==>
              && |Entries(disk, root)| == ImageCount(disk, root, PresentSplits(disk, root))
              && EntriesInSplitOrder(Entries(disk, root))
              && forall s :: OfSplit(Entries(disk, root), s)
                   == if s in Splits && disk.isDir(SplitDir(root, s))
                      then SplitEntries(root, s, ImagesIn(disk, SplitDir(root, s))) else []
    ensures !Structured(disk, root) ==>
              Entries(disk, root) == SplitEntries(root, "train", ImagesIn(disk, root))
    ensures forall i :: 0 <= i < |Entries(disk, root)| ==>
              var e := Entries(disk, root)[i];
              e.labelFile == LabelPath(root, e.split, e.image) && e.split in Splits
  {
    if Structured(disk, root) {
      var present := PresentSplits(disk, root);
      EntriesOfCount(disk, root, present);
      EntriesOfInOrder(disk, root, present);
      forall s ensures OfSplit(Entries(disk, root), s)
                       == if s in Splits && disk.isDir(SplitDir(root, s))
                          then SplitEntries(root, s, ImagesIn(disk, SplitDir(root, s))) else []
      {
        EntriesOfSplit(disk, root, present, s);
      }
    }
  }

  // ---------------------------------------------------------------------------
  // YOLO copy (app.py:492-498)

  /** shutil.copy2(source, destination). */
  datatype Copy = Copy(source: string, destination: string)

  /** The copy of an entry's image, which both export formats make. */
  function ImageCopy(out: string, e: Entry): Copy {
    Copy(e.image, out + "/images/" + e.split + "/" + Text.Basename(e.image))
  }

  /** The copy of an entry's label file, which only the YOLO export makes. */
  function LabelCopy(out: string, e: Entry): Copy {
    Copy(e.labelFile, out + "/labels/" + e.split + "/" + Text.Basename(e.labelFile))
  }

  /** The copies for one entry: the image always, its label file when one
      exists. */
  function EntryCopies(disk: Disk, out: string, e: Entry): seq<Copy> {
    [ImageCopy(out, e)] + if IsFile(disk, e.labelFile) then [LabelCopy(out, e)] else []
  }

  function CopyPlan(disk: Disk, out: string, es: seq<Entry>): (r: seq<Copy>)
    ensures |es| <= |r| <= 2 * |es|
  {
    if es == [] then [] else EntryCopies(disk, out, es[0]) + CopyPlan(disk, out, es[1..])
  }

  /** Every entry's image is copied. */
  lemma {:induction false} CopiesImage(disk: Disk, out: string, es: seq<Entry>, i: nat)
    requires i < |es|
    ensures Copy(es[i].image, out + "/images/" + es[i].split + "/" + Text.Basename(es[i].image)) in CopyPlan(disk, out, es)
    decreases i
  {
    if i > 0 {
      assert es[i] == es[1..][i - 1];
      CopiesImage(disk, out, es[1..], i - 1);
    }
  }

  /** Every entry's label file that exists is copied. */
  lemma {:induction false} CopiesLabel(disk: Disk, out: string, es: seq<Entry>, i: nat)
    requires i < |es| && IsFile(disk, es[i].labelFile)
    ensures Copy(es[i].labelFile, out + "/labels/" + es[i].split + "/" + Text.Basename(es[i].labelFile)) in CopyPlan(disk, out, es)
    decreases i
  {
    var c := Copy(es[i].labelFile, out + "/labels/" + es[i].split + "/" + Text.Basename(es[i].labelFile));
    var head := EntryCopies(disk, out, es[0]);
    var rest := CopyPlan(disk, out, es[1..]);
    assert CopyPlan(disk, out, es) == head + rest;
    if i > 0 {
      assert es[i] == es[1..][i - 1];
      CopiesLabel(disk, out, es[1..], i - 1);
      assert c in rest;
    } else {
      assert head == [ImageCopy(out, es[0]), c];
      assert c in head;
    }
  }

  /** Nothing else is copied: each copy is an entry's image copy or the
      copy of an entry's existing label file, source and destination alike. */
  lemma {:induction false} CopiesOnlyEntries(disk: Disk, out: string, es: seq<Entry>, c: Copy)
    requires c in CopyPlan(disk, out, es)
    ensures exists i :: 0 <= i < |es| && (c == ImageCopy(out, es[i]) || (IsFile(disk, es[i].labelFile) && c == LabelCopy(out, es[i])))
    decreases |es|
  {
    var head := EntryCopies(disk, out, es[0]);
    assert CopyPlan(disk, out, es) == head + CopyPlan(disk, out, es[1..]);
    if c in head {
      assert c == ImageCopy(out, es[0]) || (IsFile(disk, es[0].labelFile) && c == LabelCopy(out, es[0]));
    } else {
      CopiesOnlyEntries(disk, out, es[1..], c);
      var i :| 0 <= i < |es[1..]| && (c == ImageCopy(out, es[1..][i]) || (IsFile(disk, es[1..][i].labelFile) && c == LabelCopy(out, es[1..][i])));
      assert es[1..][i] == es[i + 1];
    }
  }

  // ---------------------------------------------------------------------------
  // JSON annotations (app.py:499-526)

  /** The image copies of the JSON export (app.py:502-504), one per entry,
      in order. */
  function ImageCopies(out: string, es: seq<Entry>): seq<Copy> {
    seq(|es|, i requires 0 <= i < |es| => ImageCopy(out, es[i]))
  }

  /** Both formats put the same images in place: the JSON export's copies
      are among the YOLO export's. */
  lemma JsonCopiesAreYoloCopies(disk: Disk, out: string, es: seq<Entry>)
    ensures forall c :: c in ImageCopies(out, es) ==> c in CopyPlan(disk, out, es)
  {
    forall c | c in ImageCopies(out, es) ensures c in CopyPlan(disk, out, es) {
      var i :| 0 <= i < |es| && ImageCopies(out, es)[i] == c;
      CopiesImage(disk, out, es, i);
    }
  }

  /** "bbox_yolo": the list [cx, cy, bw, bh] of the centre and size as
      fractions of the image size. */
  datatype Frame = Frame(cx: real, cy: real, bw: real, bh: real)

  /** One annotation: "class_id", "bbox_xyxy" and "bbox_yolo"; neither list
      carries the class. */
  datatype Annotation = Annotation(classId: int, bboxXyxy: Corners, bboxYolo: Frame)

  datatype Item = Item(image: string, split: string, width: nat, height: nat, annotations: seq<Annotation>)

  /** The annotations of an image's boxes; bbox_yolo divides by the image
      size, so a zero-sized image with boxes fails. */
  function Annotations(rects: seq<Box>, w: nat, h: nat): (r: Result<seq<Annotation>, CodecError>)
    ensures r.Err? <==> rects != [] && (w == 0 || h == 0)
    ensures r.Ok? ==> |r.value| == |rects|
    ensures r.Ok? ==> forall i :: 0 <= i < |rects| ==>
              var y := EncodeBox(rects[i], w, h);
              && r.value[i].classId == y.cls
              && r.value[i].bboxXyxy == Corners(rects[i].x1, rects[i].y1, rects[i].x2, rects[i].y2)
              && r.value[i].bboxYolo == Frame(y.cx, y.cy, y.bw, y.bh)
  {
    if rects == [] then Ok([])
    else if w == 0 || h == 0 then Err(ZeroDimension)
    else Ok(seq(|rects|, i requires 0 <= i < |rects| => Annotate(rects[i], w, h)))
  }

  function Annotate(b: Box, w: nat, h: nat): Annotation
    requires w > 0 && h > 0
  {
    var cx := ((b.x1 + b.x2) / 2.0) / w as real;
    var cy := ((b.y1 + b.y2) / 2.0) / h as real;
    var bw := (b.x2 - b.x1) / w as real;
    var bh := (b.y2 - b.y1) / h as real;
    Annotation(Trunc(b.cls), Corners(b.x1, b.y1, b.x2, b.y2), Frame(cx, cy, bw, bh))
  }

  /** bbox_yolo is the box's centre and size divided by the image size. */
  lemma AnnotationsBboxYolo(rects: seq<Box>, w: nat, h: nat)
    requires Annotations(rects, w, h).Ok?
    ensures forall i :: 0 <= i < |rects| ==>
              var y := Annotations(rects, w, h).value[i].bboxYolo;
              && y.cx * w as real == (rects[i].x1 + rects[i].x2) / 2.0
              && y.cy * h as real == (rects[i].y1 + rects[i].y2) / 2.0
              && y.bw * w as real == rects[i].x2 - rects[i].x1
              && y.bh * h as real == rects[i].y2 - rects[i].y1
  {
    forall i | 0 <= i < |rects|
      ensures var y := Annotations(rects, w, h).value[i].bboxYolo;
              && y.cx * w as real == (rects[i].x1 + rects[i].x2) / 2.0
              && y.cy * h as real == (rects[i].y1 + rects[i].y2) / 2.0
              && y.bw * w as real == rects[i].x2 - rects[i].x1
              && y.bh * h as real == rects[i].y2 - rects[i].y1
    {
      EncodeBoxScales(rects[i], w, h);
    }
  }

  /** The JSON item of one entry, read from its label file. */
  function EntryItem(disk: Disk, e: Entry, num: string -> Option<real>): (r: Result<Item, CodecError>)
    ensures r.Ok? ==> r.value.image == Text.Basename(e.image) && r.value.split == e.split
                      && (r.value.width, r.value.height) == disk.imageSize(e.image)
    ensures var (w, h) := disk.imageSize(e.image);
            var read := ReadLabels(disk.files(e.labelFile), w, h, num);
            && (read.Err? ==> r == Err(read.error))
            && (read.Ok? ==> (r.Ok? <==> Annotations(read.value, w, h).Ok?))
            && (read.Ok? && r.Err? ==> r == Err(ZeroDimension))
  {
    var (w, h) := disk.imageSize(e.image);
    var rects :- ReadLabels(disk.files(e.labelFile), w, h, num);
    var anns :- Annotations(rects, w, h);
    Ok(Item(Text.Basename(e.image), e.split, w, h, anns))
  }

  /** The annotations of an entry are those of the boxes its label file
      holds. */
  lemma EntryItemAnnotations(disk: Disk, e: Entry, num: string -> Option<real>)
    requires EntryItem(disk, e, num).Ok?
    ensures var (w, h) := disk.imageSize(e.image);
            && ReadLabels(disk.files(e.labelFile), w, h, num).Ok?
            && Annotations(ReadLabels(disk.files(e.labelFile), w, h, num).value, w, h)
               == Ok(EntryItem(disk, e, num).value.annotations)
  {
  }

  /** An exported annotation is exactly the line of the label file it came
      from: class_id is the line's class, bbox_yolo its four numbers, and
      bbox_xyxy the corners of the box the line denotes. */
  lemma ExportedLinesMatchFile(disk: Disk, e: Entry, num: string -> Option<real>)
    requires disk.imageSize(e.image).0 > 0 && disk.imageSize(e.image).1 > 0
    requires HasLabelFile(disk.files(e.labelFile))
    requires EntryItem(disk, e, num).Ok?
    ensures var lines := Kept(Text.Lines(disk.files(e.labelFile).value));
            && |EntryItem(disk, e, num).value.annotations| == |lines|
            && forall i :: 0 <= i < |lines| ==>
                 && ReadLine(lines[i], num).Read?
                 && var y := ReadLine(lines[i], num).line;
                    var a := EntryItem(disk, e, num).value.annotations[i];
                    var b := DecodeYolo(y, disk.imageSize(e.image).0, disk.imageSize(e.image).1);
                    && a.classId == y.cls
                    && a.bboxYolo == Frame(y.cx, y.cy, y.bw, y.bh)
                    && a.bboxXyxy == Corners(b.x1, b.y1, b.x2, b.y2)
  {
    var (w, h) := disk.imageSize(e.image);
    var text := Text.Lines(disk.files(e.labelFile).value);
    var lines := Kept(text);
    EntryItemAnnotations(disk, e, num);
    var rects := ReadLines(text, w, h, num).value;
    var anns := EntryItem(disk, e, num).value.annotations;
    assert Annotations(rects, w, h) == Ok(anns);
    ReadLinesCorrespondence(text, w, h, num);
    forall i | 0 <= i < |lines|
      ensures && ReadLine(lines[i], num).Read?
              && var y := ReadLine(lines[i], num).line;
                 var b := DecodeYolo(y, w, h);
                 && anns[i].classId == y.cls
                 && anns[i].bboxYolo == Frame(y.cx, y.cy, y.bw, y.bh)
                 && anns[i].bboxXyxy == Corners(b.x1, b.y1, b.x2, b.y2)
    {
      var y := ReadLine(lines[i], num).line;
      assert rects[i] == DecodeYolo(y, w, h);
      EncodeDecode(y, w, h);
    }
  }

  /** A group of by_split: a split and its items. */
  datatype Group = Group(split: string, items: seq<Item>)

  /** The keys of by_split, in order. (The ensures spell out the
      comprehension for the proofs below.) */
  function Keys(gs: seq<Group>): (ks: seq<string>)
    ensures |ks| == |gs|
    ensures forall i :: 0 <= i < |gs| ==> ks[i] == gs[i].split
  {
    seq(|gs|, i requires 0 <= i < |gs| => gs[i].split)
  }

  /** The position of the group for `split`, or |gs| when there is none. */
  function FindGroup(gs: seq<Group>, split: string): (k: nat)
    ensures k <= |gs|
    ensures k < |gs| ==> gs[k].split == split
    ensures forall i :: 0 <= i < k ==> gs[i].split != split
  {
    if gs == [] then 0
    else if gs[0].split == split then 0
    else 1 + FindGroup(gs[1..], split)
  }

  /** by_split.setdefault(split, []).append(item) */
  function AddItem(gs: seq<Group>, it: Item): (r: seq<Group>)
    requires Order.Distinct(Keys(gs))
    ensures Keys(r) == if it.split in Keys(gs) then Keys(gs) else Keys(gs) + [it.split]
    ensures forall i :: 0 <= i < |r| ==>
              r[i].items == (if i < |gs| then gs[i].items else []) + (if r[i].split == it.split then [it] else [])
  {
    var k := FindGroup(gs, it.split);
    if k < |gs| then
      var r := gs[k := gs[k].(items := gs[k].items + [it])];
      assert Keys(r) == Keys(gs);
      assert Keys(gs)[k] == it.split;
      r
    else
      var r := gs + [Group(it.split, [it])];
      assert Keys(r) == Keys(gs) + [it.split];
      r
  }

  /** The names in order of first appearance, each once. */
  function FirstAppearances(names: seq<string>): (ks: seq<string>)
    ensures forall k :: k in ks <==> k in names
    ensures Order.Distinct(ks)
  {
    if names == [] then []
    else
      var k := FirstAppearances(names[..|names| - 1]);
      assert names == names[..|names| - 1] + [names[|names| - 1]];
      if names[|names| - 1] in k then k else k + [names[|names| - 1]]
  }

  function ItemSplits(items: seq<Item>): seq<string> {
    seq(|items|, i requires 0 <= i < |items| => items[i].split)
  }

  /** The items of one split, in order. */
  function ItemsOf(items: seq<Item>, split: string): (r: seq<Item>)
    ensures split !in ItemSplits(items) ==> r == []
  {
    if items == [] then []
    else
      assert ItemSplits(items) == ItemSplits(items[..|items| - 1]) + [items[|items| - 1].split];
      ItemsOf(items[..|items| - 1], split) + (if items[|items| - 1].split == split then [items[|items| - 1]] else [])
  }

  /** by_split after appending every item in turn: one group per split, in
      order of first appearance (GroupBySplitItems: each holding that
      split's items in order). */
  function GroupBySplit(items: seq<Item>): (r: seq<Group>)
    ensures Keys(r) == FirstAppearances(ItemSplits(items))
  {
    if items == [] then []
    else
      var init := items[..|items| - 1];
      var it := items[|items| - 1];
      assert ItemSplits(items) == ItemSplits(init) + [it.split];
      AddItem(GroupBySplit(init), it)
  }

  /** Each group of by_split holds exactly its split's items, in order. */
  lemma {:induction false} GroupBySplitItems(items: seq<Item>)
    ensures forall i :: 0 <= i < |GroupBySplit(items)| ==>
              GroupBySplit(items)[i].items == ItemsOf(items, GroupBySplit(items)[i].split)
    decreases |items|
  {
    if items != [] {
      var init := items[..|items| - 1];
      var it := items[|items| - 1];
      GroupBySplitItems(init);
      var gs := GroupBySplit(init);
      var r := GroupBySplit(items);
      assert r == AddItem(gs, it);
      forall i | 0 <= i < |r| ensures r[i].items == ItemsOf(items, r[i].split) {
        var k := r[i].split;
        assert ItemsOf(items, k) == ItemsOf(init, k) + (if it.split == k then [it] else []);
        assert Keys(r)[i] == k;
        if i < |gs| {
          assert Keys(gs)[i] == k;
        } else {
          assert k == it.split && it.split !in Keys(gs);
          assert k !in ItemSplits(init);
        }
      }
    }
  }

  /** Applies `f` to every entry in order; the first failure aborts. */
  function MapItems(f: Entry -> Result<Item, CodecError>, es: seq<Entry>): Result<seq<Item>, CodecError>
    decreases |es|
  {
    if es == [] then Ok([])
    else
      match f(es[0])
      case Err(e) => Err(e)
      case Ok(first) =>
        match MapItems(f, es[1..])
        case Err(e) => Err(e)
        case Ok(rest) => Ok([first] + rest)
  }

  /** The index of the first entry `f` fails on, or |es|. */
  function FirstFailure(f: Entry -> Result<Item, CodecError>, es: seq<Entry>): (k: nat)
    ensures k <= |es|
    ensures forall j :: 0 <= j < k ==> f(es[j]).Ok?
    ensures k < |es| ==> f(es[k]).Err?
    decreases |es|
  {
    if es == [] || f(es[0]).Err? then 0 else 1 + FirstFailure(f, es[1..])
  }

  /** MapItems succeeds exactly when `f` succeeds on every entry, and then
      holds f's items in order; otherwise it fails with f's error on the
      first entry it fails on. */
  lemma {:induction false} MapItemsSpec(f: Entry -> Result<Item, CodecError>, es: seq<Entry>)
    ensures MapItems(f, es).Ok? <==> FirstFailure(f, es) == |es|
    ensures MapItems(f, es).Ok? ==>
              && |MapItems(f, es).value| == |es|
              && forall i :: 0 <= i < |es| ==> f(es[i]) == Ok(MapItems(f, es).value[i])
    ensures MapItems(f, es).Err? ==>
              FirstFailure(f, es) < |es| && MapItems(f, es).error == f(es[FirstFailure(f, es)]).error
    decreases |es|
  {
    if es != [] && f(es[0]).Ok? {
      var tail := es[1..];
      MapItemsSpec(f, tail);
      assert forall i :: 1 <= i < |es| ==> es[i] == tail[i - 1];
      if MapItems(f, tail).Ok? {
        var rest := MapItems(f, tail).value;
        assert MapItems(f, es).value == [f(es[0]).value] + rest;
      }
    }
  }

  /** The items of the entries, in order; the first failing entry aborts. */
  function JsonItems(disk: Disk, es: seq<Entry>, num: string -> Option<real>): Result<seq<Item>, CodecError> {
    MapItems(e => EntryItem(disk, e, num), es)
  }

  /** The JSON export reads every entry in order: when it succeeds it holds
      each entry's item. */
  lemma JsonItemsOk(disk: Disk, es: seq<Entry>, num: string -> Option<real>)
    requires JsonItems(disk, es, num).Ok?
    ensures |JsonItems(disk, es, num).value| == |es|
    ensures forall i :: 0 <= i < |es| ==> EntryItem(disk, es[i], num) == Ok(JsonItems(disk, es, num).value[i])
  {
    MapItemsSpec(e => EntryItem(disk, e, num), es);
  }

  /** The JSON export fails exactly when some entry's item cannot be built,
      and then with the error of the first entry that fails. */
  lemma JsonItemsErr(disk: Disk, es: seq<Entry>, num: string -> Option<real>)
    ensures JsonItems(disk, es, num).Err? <==> exists i :: 0 <= i < |es| && EntryItem(disk, es[i], num).Err?
    ensures JsonItems(disk, es, num).Err? ==>
              exists i :: && 0 <= i < |es|
                          && EntryItem(disk, es[i], num).Err?
                          && JsonItems(disk, es, num).error == EntryItem(disk, es[i], num).error
                          && forall j :: 0 <= j < i ==> EntryItem(disk, es[j], num).Ok?
  {
    var f := e => EntryItem(disk, e, num);
    MapItemsSpec(f, es);
    var k := FirstFailure(f, es);
    if k < |es| {
      assert EntryItem(disk, es[k], num) == f(es[k]);
      forall j | 0 <= j < k ensures EntryItem(disk, es[j], num).Ok? {
        assert f(es[j]).Ok?;
      }
    } else {
      forall i | 0 <= i < |es| ensures EntryItem(disk, es[i], num).Ok? {
        assert f(es[i]).Ok?;
      }
    }
  }

  // ---------------------------------------------------------------------------
  // export_all

  datatype ExportReq = ExportReq(outputDir: string, format: string)

  const YoloFormat: string := "YOLO (.txt)"

  /** What an export writes: the YOLO copies, or the JSON export's image
      copies and its by_split groups (one annotations/<split>.json each). */
  datatype Output =
    | Copied(copies: seq<Copy>)
    | Annotated(imageCopies: seq<Copy>, groups: seq<Group>)

  datatype Exported = Exported(output: Output, count: nat, outputDir: string)

  function EntrySplits(es: seq<Entry>): seq<string> {
    seq(|es|, i requires 0 <= i < |es| => es[i].split)
  }

  /** export_all: the YOLO copy plan, or the JSON export's image copies and
      per-split groups, and the number of entries; a label file the codec
      rejects fails the JSON export. */
  function ExportAll(state: ProjectState, req: ExportReq, disk: Disk, num: string -> Option<real>): (r: Result<Exported, ApiError>)
    ensures state.root == "" <==> r == Err(NoProject)
    ensures r.Ok? ==> r.value.count == |Entries(disk, state.root)| && r.value.outputDir == Norm(disk, req.outputDir)
    ensures r.Ok? ==> (r.value.output.Copied? <==> req.format == YoloFormat)
    ensures state.root != "" && req.format == YoloFormat ==>
              r == Ok(Exported(Copied(CopyPlan(disk, Norm(disk, req.outputDir), Entries(disk, state.root))),
                               |Entries(disk, state.root)|, Norm(disk, req.outputDir)))
    ensures state.root != "" && req.format != YoloFormat ==>
              var items := JsonItems(disk, Entries(disk, state.root), num);
              && (r.Err? <==> items.Err?)
              && (r.Err? ==> r == Err(Codec(items.error)))
              && (r.Ok? ==> r.value.output == Annotated(ImageCopies(Norm(disk, req.outputDir), Entries(disk, state.root)),
                                                        GroupBySplit(items.value)))
    ensures r.Ok? && r.value.output.Annotated? ==>
              Keys(r.value.output.groups) == FirstAppearances(EntrySplits(Entries(disk, state.root)))
  {
    if state.root == "" then Err(NoProject)
    else
      var out := Norm(disk, req.outputDir);
      var es := Entries(disk, state.root);
      if req.format == YoloFormat then
        Ok(Exported(Copied(CopyPlan(disk, out, es)), |es|, out))
      else
        match JsonItems(disk, es, num)
        case Err(e) => Err(Codec(e))
        case Ok(items) =>
          JsonItemsOk(disk, es, num);
          ItemSplitsOfEntries(disk, es, num, items);
          Ok(Exported(Annotated(ImageCopies(out, es), GroupBySplit(items)), |es|, out))
  }

  lemma ItemSplitsOfEntries(disk: Disk, es: seq<Entry>, num: string -> Option<real>, items: seq<Item>)
    requires |items| == |es|
    requires forall i :: 0 <= i < |es| ==> EntryItem(disk, es[i], num) == Ok(items[i])
    ensures ItemSplits(items) == EntrySplits(es)
  {
    forall i | 0 <= i < |es| ensures items[i].split == es[i].split {
      assert EntryItem(disk, es[i], num) == Ok(items[i]);
    }
  }
}

=== FILE: host.dfy ===
/** What the server sees of its host: the filesystem as pure queries on path
    strings, the path normalisation every endpoint applies, and the shape of
    the errors the endpoints raise. */
module Host {
  import opened Wrappers
  import Text
  import LabelCodec

  /** The filesystem queries the endpoints make, each a function of a path
      string: os.path.abspath, os.path.isdir, the regular files with their
      text (os.path.isfile, os.path.getsize, open), glob.glob on the pattern dir + "/" + "*.*"
      in the order the filesystem lists entries, and the (width, height)
      PIL reads from an image. */
  datatype Disk = Disk(
    absPath: string -> string,
    isDir: string -> bool,
    files: string -> Option<string>,
    glob: string -> seq<string>,
    imageSize: string -> (nat, nat))

  predicate IsFile(disk: Disk, p: string) {
    disk.files(p).Some?
  }

  /** The disk after the regular file at `p` became `f` (None: removed). */
  function WithFile(disk: Disk, p: string, f: Option<string>): (d: Disk)
    ensures d.files(p) == f
    ensures forall q :: q != p ==> d.files(q) == disk.files(q)
    ensures d.isDir == disk.isDir && d.glob == disk.glob
    ensures d.imageSize == disk.imageSize && d.absPath == disk.absPath
  {
    disk.(files := q => if q == p then f else disk.files(q))
  }

  /** norm (app.py:35-36): the absolute path with every backslash turned into
      a forward slash. */
  function Norm(disk: Disk, p: string): (r: string)
    ensures '\\' !in r
    ensures |r| == |disk.absPath(p)|
    ensures forall i :: 0 <= i < |r| ==>
              r[i] == (if disk.absPath(p)[i] == '\\' then '/' else disk.absPath(p)[i])
  {
    Text.ReplaceChar(disk.absPath(p), '\\', '/')
  }

  /** An endpoint's failure: an HTTPException with its status and detail, or
      an exception the label codec raised. */
  datatype ApiError =
    | Http(status: int, detail: string)
    | Codec(error: LabelCodec.CodecError)

  const NoProject: ApiError := Http(400, "No project loaded")
}

=== FILE: label_codec.dfy ===
/** The YOLO label-file codec of app.py: `read_yolo_labels` turns each line
    `class cx cy w h` (centre, width and height as fractions of the image
    size) into a pixel-space corner box `[x1, y1, x2, y2, class]`, and
    `save_yolo_labels` writes boxes back as such lines, or removes the label
    file when there is no box.

    Coordinates are mathematical reals. Python's float() is the parameter
    `num` (None where float() raises ValueError) and the "%.6f" formatting is
    the parameter `fmt`; a label file is `Option<string>`: None when no
    regular file is at the path, otherwise its text. */
module LabelCodec {
  import opened Wrappers
  import Text

  /** A box as the endpoints exchange it: the list [x1, y1, x2, y2, cls] of
      numbers, in image pixels. */
  datatype Box = Box(x1: real, y1: real, x2: real, y2: real, cls: real)

  /** The corners [x1, y1, x2, y2] of a box, without a class: what the
      detector reports per box (b.xyxy) and the export's "bbox_xyxy". */
  datatype Corners = Corners(x1: real, y1: real, x2: real, y2: real)

  /** What one label line says: an integer class and the normalised centre,
      width and height. */
  datatype Yolo = Yolo(cls: int, cx: real, cy: real, bw: real, bh: real)

  datatype CodecError =
    | NotANumber(token: string)   // float() raised ValueError on this token
    | ZeroDimension               // division by a zero image width or height

  /** Python's int() on a float: truncation toward zero. */
  function Trunc(x: real): (n: int)
    ensures 0.0 <= x ==> n as real <= x < n as real + 1.0
    ensures x < 0.0 ==> n as real - 1.0 < x <= n as real
  {
    if x >= 0.0 then x.Floor else -((-x).Floor)
  }

  lemma TruncOfInteger(n: int)
    ensures Trunc(n as real) == n
  {
  }

  /** A box with its class replaced by int(class), as reading it back from a
      label file gives it. */
  function WithIntClass(b: Box): Box {
    b.(cls := Trunc(b.cls) as real)
  }

  /** The boxes reading gives back after `bs` were saved. */
  function AsRead(bs: seq<Box>): seq<Box> {
    seq(|bs|, i requires 0 <= i < |bs| => WithIntClass(bs[i]))
  }

  // ---------------------------------------------------------------------------
  // Geometry

  /** The pixel box a label line denotes (app.py:75-81). */
  function DecodeYolo(y: Yolo, w: nat, h: nat): (b: Box)
    ensures b.x2 - b.x1 == y.bw * w as real
    ensures b.y2 - b.y1 == y.bh * h as real
    ensures (b.x1 + b.x2) / 2.0 == y.cx * w as real
    ensures (b.y1 + b.y2) / 2.0 == y.cy * h as real
    ensures b.cls == y.cls as real
  {
    Box((y.cx - y.bw / 2.0) * w as real,
        (y.cy - y.bh / 2.0) * h as real,
        (y.cx + y.bw / 2.0) * w as real,
        (y.cy + y.bh / 2.0) * h as real,
        y.cls as real)
  }

  /** The label line for a pixel box (app.py:92-97, and the "bbox_yolo" field
      of the JSON export, app.py:509-514). */
  function EncodeBox(b: Box, w: nat, h: nat): (y: Yolo)
    requires w > 0 && h > 0
    ensures y.cls == Trunc(b.cls)
  {
    Yolo(Trunc(b.cls),
         ((b.x1 + b.x2) / 2.0) / w as real,
         ((b.y1 + b.y2) / 2.0) / h as real,
         (b.x2 - b.x1) / w as real,
         (b.y2 - b.y1) / h as real)
  }

  /** The encoded centre and size, scaled back by the image size, are the
      box's centre and size in pixels. */
  lemma EncodeBoxScales(b: Box, w: nat, h: nat)
    requires w > 0 && h > 0
    ensures EncodeBox(b, w, h).cx * w as real == (b.x1 + b.x2) / 2.0
    ensures EncodeBox(b, w, h).cy * h as real == (b.y1 + b.y2) / 2.0
    ensures EncodeBox(b, w, h).bw * w as real == b.x2 - b.x1
    ensures EncodeBox(b, w, h).bh * h as real == b.y2 - b.y1
  {
  }

  /** Decoding the encoding of a box gives back its corners exactly, and its
      class as int(class). */
  lemma DecodeEncode(b: Box, w: nat, h: nat)
    requires w > 0 && h > 0
    ensures DecodeYolo(EncodeBox(b, w, h), w, h) == WithIntClass(b)
  {
    var y := EncodeBox(b, w, h);
    var d := DecodeYolo(y, w, h);
    EncodeBoxScales(b, w, h);
    assert d.x1 == b.x1 && d.x2 == b.x2 by {
      assert d.x2 - d.x1 == b.x2 - b.x1;
      assert d.x1 + d.x2 == b.x1 + b.x2;
    }
    assert d.y1 == b.y1 && d.y2 == b.y2 by {
      assert d.y2 - d.y1 == b.y2 - b.y1;
      assert d.y1 + d.y2 == b.y1 + b.y2;
    }
  }

  /** Encoding the decoding of a label line gives back the line. */
  lemma EncodeDecode(y: Yolo, w: nat, h: nat)
    requires w > 0 && h > 0
    ensures EncodeBox(DecodeYolo(y, w, h), w, h) == y
  {
    var e := EncodeBox(DecodeYolo(y, w, h), w, h);
    EncodeBoxScales(DecodeYolo(y, w, h), w, h);
    TruncOfInteger(y.cls);
    assert e.cx * w as real == y.cx * w as real;
    assert e.cy * h as real == y.cy * h as real;
    assert e.bw * w as real == y.bw * w as real;
    assert e.bh * h as real == y.bh * h as real;
  }

  // ---------------------------------------------------------------------------
  // Reading

  /** map(float, tokens), evaluated left to right: the first token float()
      rejects raises. */
  function ParseNumbers(tokens: seq<string>, num: string -> Option<real>): (r: Result<seq<real>, CodecError>)
    ensures r.Ok? <==> forall i :: 0 <= i < |tokens| ==> num(tokens[i]).Some?
    ensures r.Ok? ==> (|r.value| == |tokens|
                       && forall i :: 0 <= i < |tokens| ==> num(tokens[i]) == Some(r.value[i]))
    ensures r.Err? ==> exists i :: 0 <= i < |tokens| && num(tokens[i]).None?
                                 && r.error == NotANumber(tokens[i])
                                 && forall j :: 0 <= j < i ==> num(tokens[j]).Some?
  {
    if tokens == [] then
      Ok([])
    else if num(tokens[0]).None? then
      Err(NotANumber(tokens[0]))
    else
      match ParseNumbers(tokens[1..], num)
      case Ok(vs) => Ok([num(tokens[0]).value] + vs)
      case Err(e) =>
        ghost var i :| 0 <= i < |tokens[1..]| && num(tokens[1..][i]).None?
                      && e == NotANumber(tokens[1..][i])
                      && forall j :: 0 <= j < i ==> num(tokens[1..][j]).Some?;
        assert tokens[i + 1] == tokens[1..][i];
        assert forall j :: 1 <= j < i + 1 ==> tokens[j] == tokens[1..][j - 1];
        Err(e)
  }

  /** What reading does with one line. */
  datatype LineReading = Skipped | Malformed(token: string) | Read(line: Yolo)

  /** The whitespace-separated fields of a line (`line.strip().split()`). */
  function Fields(line: string): seq<string> {
    Text.Split(Text.Strip(line))
  }

  /** One line of a label file (app.py:71-74). */
  function ReadLine(line: string, num: string -> Option<real>): LineReading {
    Classify(Fields(line), num)
  }

  /** What reading does with the fields of one line. */
  function Classify(parts: seq<string>, num: string -> Option<real>): LineReading {
    if |parts| != 5 then
      Skipped
    else
      match ParseNumbers(parts, num)
      case Err(e) => Malformed(e.token)
      case Ok(v) => Read(Yolo(Trunc(v[0]), v[1], v[2], v[3], v[4]))
  }

  /** A line that does not split into exactly five fields is skipped; a
      five-field line with a field float() rejects is malformed; otherwise
      float() is applied to every field and the first becomes the class
      through int(). */
  lemma ReadLineCases(line: string, num: string -> Option<real>)
    ensures ReadLine(line, num).Skipped? <==> |Fields(line)| != 5
    ensures ReadLine(line, num).Malformed? <==>
              |Fields(line)| == 5 && exists i :: 0 <= i < 5 && num(Fields(line)[i]).None?
    ensures ReadLine(line, num).Read? ==>
              && (forall i :: 0 <= i < 5 ==> num(Fields(line)[i]).Some?)
              && ReadLine(line, num).line
                 == Yolo(Trunc(num(Fields(line)[0]).value),
                         num(Fields(line)[1]).value, num(Fields(line)[2]).value,
                         num(Fields(line)[3]).value, num(Fields(line)[4]).value)
  {
    ClassifyCases(Fields(line), num);
  }

  lemma ClassifyCases(parts: seq<string>, num: string -> Option<real>)
    ensures Classify(parts, num).Skipped? <==> |parts| != 5
    ensures Classify(parts, num).Malformed? <==>
              |parts| == 5 && exists i :: 0 <= i < 5 && num(parts[i]).None?
    ensures Classify(parts, num).Read? ==>
              && (forall i :: 0 <= i < 5 ==> num(parts[i]).Some?)
              && Classify(parts, num).line
                 == Yolo(Trunc(num(parts[0]).value), num(parts[1]).value, num(parts[2]).value,
                         num(parts[3]).value, num(parts[4]).value)
  {
  }

  /** The lines `keep` accepts, in order. */
  function Filter(lines: seq<string>, keep: string -> bool): seq<string> {
    if lines == [] then []
    else if keep(lines[0]) then [lines[0]] + Filter(lines[1..], keep)
    else Filter(lines[1..], keep)
  }

  const HasFiveFields: string -> bool := line => |Fields(line)| == 5

  /** The lines a reader turns into boxes: those with exactly five fields. */
  function Kept(lines: seq<string>): seq<string> {
    Filter(lines, HasFiveFields)
  }

  /** The classification of every line by `reader`, in order. (The ensures
      spell out the comprehension for the proofs below.) */
  function Readings(lines: seq<string>, reader: string -> LineReading): (rs: seq<LineReading>)
    ensures |rs| == |lines|
    ensures forall i :: 0 <= i < |lines| ==> rs[i] == reader(lines[i])
  {
    seq(|lines|, i requires 0 <= i < |lines| => reader(lines[i]))
  }

  function Reader(num: string -> Option<real>): string -> LineReading {
    line => ReadLine(line, num)
  }

  /** The loop of read_yolo_labels over already-classified lines: the first
      malformed line raises, skipped lines add nothing, and every other line
      appends its box. */
  function Collect(rs: seq<LineReading>, w: nat, h: nat): Result<seq<Box>, CodecError> {
    if rs == [] then
      Ok([])
    else
      match rs[0]
      case Malformed(t) => Err(NotANumber(t))
      case Skipped => Collect(rs[1..], w, h)
      case Read(y) =>
        match Collect(rs[1..], w, h)
        case Err(e) => Err(e)
        case Ok(bs) => Ok([DecodeYolo(y, w, h)] + bs)
  }

  /** Every line of a file in order (app.py:70-81). */
  function ReadLines(lines: seq<string>, w: nat, h: nat, num: string -> Option<real>): Result<seq<Box>, CodecError> {
    Collect(Readings(lines, Reader(num)), w, h)
  }

  /** The label lines of the lines that were read, in order. */
  function ReadOnes(rs: seq<LineReading>): (ys: seq<Yolo>)
    ensures |ys| <= |rs|
  {
    if rs == [] then []
    else if rs[0].Read? then [rs[0].line] + ReadOnes(rs[1..])
    else ReadOnes(rs[1..])
  }

  /** Collecting fails exactly when some line is malformed, and then with the
      token of the first malformed line. */
  lemma {:induction false} CollectFails(rs: seq<LineReading>, w: nat, h: nat)
    ensures Collect(rs, w, h).Ok? <==> forall i :: 0 <= i < |rs| ==> !rs[i].Malformed?
    ensures Collect(rs, w, h).Err? ==>
              exists i :: 0 <= i < |rs| && rs[i].Malformed?
                          && Collect(rs, w, h).error == NotANumber(rs[i].token)
                          && forall j :: 0 <= j < i ==> !rs[j].Malformed?
    decreases |rs|
  {
    if rs != [] {
      var tail := rs[1..];
      CollectFails(tail, w, h);
      assert forall i :: 1 <= i < |rs| ==> rs[i] == tail[i - 1];
      var rt := Collect(tail, w, h);
      if !rs[0].Malformed? && rt.Err? {
        var i :| 0 <= i < |tail| && tail[i].Malformed? && rt.error == NotANumber(tail[i].token)
                 && forall j :: 0 <= j < i ==> !tail[j].Malformed?;
        assert rs[i + 1] == tail[i];
      }
    }
  }

  /** A successful collection decodes exactly the lines that were read, one
      box each, in order. */
  lemma {:induction false} CollectDecodes(rs: seq<LineReading>, w: nat, h: nat)
    requires Collect(rs, w, h).Ok?
    ensures |Collect(rs, w, h).value| == |ReadOnes(rs)|
    ensures forall i :: 0 <= i < |ReadOnes(rs)| ==>
              Collect(rs, w, h).value[i] == DecodeYolo(ReadOnes(rs)[i], w, h)
    decreases |rs|
  {
    if rs != [] {
      CollectDecodes(rs[1..], w, h);
    }
  }

  /** Which lines are read, for any classification that finds no line
      malformed and skips exactly the lines `keep` rejects: exactly the
      lines `keep` accepts. */
  lemma {:induction false} ReadOnesAreKept(lines: seq<string>, reader: string -> LineReading, keep: string -> bool)
    requires forall i :: 0 <= i < |lines| ==> !reader(lines[i]).Malformed?
    requires forall i :: 0 <= i < |lines| ==> (reader(lines[i]).Skipped? <==> !keep(lines[i]))
    ensures |ReadOnes(Readings(lines, reader))| == |Filter(lines, keep)|
    ensures forall i :: 0 <= i < |Filter(lines, keep)| ==>
              reader(Filter(lines, keep)[i]) == Read(ReadOnes(Readings(lines, reader))[i])
    decreases |lines|
  {
    if lines != [] {
      var tail := lines[1..];
      assert forall i :: 0 <= i < |tail| ==> tail[i] == lines[i + 1];
      ReadOnesAreKept(tail, reader, keep);
      var rs := Readings(lines, reader);
      assert rs[1..] == Readings(tail, reader);
      var k, kt := Filter(lines, keep), Filter(tail, keep);
      var o, ot := ReadOnes(rs), ReadOnes(rs[1..]);
      if rs[0].Read? {
        assert k == [lines[0]] + kt;
        assert o == [rs[0].line] + ot;
        forall i | 0 <= i < |k| ensures reader(k[i]) == Read(o[i]) {
          if i > 0 {
            assert k[i] == kt[i - 1];
            assert o[i] == ot[i - 1];
          }
        }
      } else {
        assert k == kt;
        assert o == ot;
      }
    }
  }

  /** Reading a file's lines: a five-field line with a field float() rejects
      aborts the whole read, with the first such field; otherwise exactly the
      five-field lines become boxes, one each, in order, each the box its
      line denotes. */
  lemma ReadLinesCorrespondence(lines: seq<string>, w: nat, h: nat, num: string -> Option<real>)
    ensures ReadLines(lines, w, h, num).Ok? <==> forall i :: 0 <= i < |lines| ==> !ReadLine(lines[i], num).Malformed?
    ensures ReadLines(lines, w, h, num).Err? ==>
              exists i :: 0 <= i < |lines| && ReadLine(lines[i], num).Malformed?
                          && ReadLines(lines, w, h, num).error == NotANumber(ReadLine(lines[i], num).token)
                          && forall j :: 0 <= j < i ==> !ReadLine(lines[j], num).Malformed?
    ensures ReadLines(lines, w, h, num).Ok? ==>
              && |ReadLines(lines, w, h, num).value| == |Kept(lines)|
              && forall i :: 0 <= i < |Kept(lines)| ==>
                   ReadLine(Kept(lines)[i], num).Read?
                   && ReadLines(lines, w, h, num).value[i] == DecodeYolo(ReadLine(Kept(lines)[i], num).line, w, h)
  {
    var reader := Reader(num);
    var rs := Readings(lines, reader);
    CollectFails(rs, w, h);
    if Collect(rs, w, h).Ok? {
      CollectDecodes(rs, w, h);
      forall i | 0 <= i < |lines|
        ensures reader(lines[i]).Skipped? <==> !HasFiveFields(lines[i])
      {
        ReadLineCases(lines[i], num);
      }
      ReadOnesAreKept(lines, reader, HasFiveFields);
    }
  }

  /** `has_label_file`: a regular file exists at the path and is not empty
      (app.py:335). */
  predicate HasLabelFile(file: Option<string>) {
    file.Some? && file.value != []
  }

  /** read_yolo_labels (app.py:65-82). */
  function ReadLabels(file: Option<string>, w: nat, h: nat, num: string -> Option<real>): (r: Result<seq<Box>, CodecError>)
    ensures !HasLabelFile(file) ==> r == Ok([])
    ensures HasLabelFile(file) ==> r == ReadLines(Text.Lines(file.value), w, h, num)
  {
    if !HasLabelFile(file) then Ok([]) else ReadLines(Text.Lines(file.value), w, h, num)
  }

  // ---------------------------------------------------------------------------
  // Writing

  /** The text of one label line, f"{int(cid)} {cx:.6f} {cy:.6f} {bw:.6f} {bh:.6f}",
      without its "\n". */
  function LineText(y: Yolo, fmt: real -> string): string {
    Text.JoinSpace(LineWords(y, fmt))
  }

  function LineWords(y: Yolo, fmt: real -> string): seq<string> {
    [Text.IntText(y.cls), fmt(y.cx), fmt(y.cy), fmt(y.bw), fmt(y.bh)]
  }

  /** The label line of every box, in order; the ensures spell out the
      comprehension for the proofs below. */
  function EncodeAll(bs: seq<Box>, w: nat, h: nat): (ys: seq<Yolo>)
    requires w > 0 && h > 0
    ensures |ys| == |bs|
    ensures forall i :: 0 <= i < |bs| ==> ys[i] == EncodeBox(bs[i], w, h)
  {
    seq(|bs|, i requires 0 <= i < |bs| => EncodeBox(bs[i], w, h))
  }

  function RenderLines(ys: seq<Yolo>, fmt: real -> string): (ls: seq<string>)
    ensures |ls| == |ys|
    ensures forall i :: 0 <= i < |ys| ==> ls[i] == LineText(ys[i], fmt)
  {
    seq(|ys|, i requires 0 <= i < |ys| => LineText(ys[i], fmt))
  }

  /** save_yolo_labels (app.py:85-99): the label file after the call. No box
      removes the file; otherwise the file holds one "\n"-terminated line per
      box, and a zero image dimension raises before anything is written. */
  function SaveLabels(bs: seq<Box>, w: nat, h: nat, fmt: real -> string): (r: Result<Option<string>, CodecError>)
    ensures bs == [] <==> r == Ok(None)
    ensures bs != [] && (w == 0 || h == 0) <==> r == Err(ZeroDimension)
    ensures r.Ok? && bs != [] ==> HasLabelFile(r.value)
  {
    if bs == [] then
      Ok(None)
    else if w == 0 || h == 0 then
      Err(ZeroDimension)
    else
      var lines := RenderLines(EncodeAll(bs, w, h), fmt);
      assert |Text.Terminated(lines)| > 0;
      Ok(Some(Text.Terminated(lines)))
  }

  /** Writing no box leaves no label file: a later read gives no box, and
      has_label_file is false. */
  lemma SaveEmptyRemovesFile(w: nat, h: nat, fmt: real -> string, num: string -> Option<real>)
    ensures SaveLabels([], w, h, fmt) == Ok(None)
    ensures !HasLabelFile(SaveLabels([], w, h, fmt).value)
    ensures ReadLabels(SaveLabels([], w, h, fmt).value, w, h, num) == Ok([])
  {
  }

  // ---------------------------------------------------------------------------
  // Round trip

  /** `fmt` writes `x` as a single word that float() reads back as `x`: the
      idealisation of "%.6f" under which the codec is lossless. */
  predicate Exact(num: string -> Option<real>, fmt: real -> string, x: real) {
    Text.IsWord(fmt(x)) && num(fmt(x)) == Some(x)
  }

  /** Every numeral of the line written for `y` reads back exactly. */
  predicate ExactLine(num: string -> Option<real>, fmt: real -> string, y: Yolo) {
    && num(Text.IntText(y.cls)) == Some(y.cls as real)
    && Exact(num, fmt, y.cx) && Exact(num, fmt, y.cy)
    && Exact(num, fmt, y.bw) && Exact(num, fmt, y.bh)
  }

  lemma LineWordsAreWords(y: Yolo, fmt: real -> string)
    requires Text.IsWord(fmt(y.cx)) && Text.IsWord(fmt(y.cy))
    requires Text.IsWord(fmt(y.bw)) && Text.IsWord(fmt(y.bh))
    ensures Text.Words(LineWords(y, fmt))
  {
  }

  /** A written line has exactly the five fields "int(cid) cx cy bw bh". */
  lemma FieldsOfLineText(y: Yolo, fmt: real -> string)
    requires Text.IsWord(fmt(y.cx)) && Text.IsWord(fmt(y.cy))
    requires Text.IsWord(fmt(y.bw)) && Text.IsWord(fmt(y.bh))
    ensures Fields(LineText(y, fmt)) == LineWords(y, fmt)
  {
    var ws := LineWords(y, fmt);
    LineWordsAreWords(y, fmt);
    var s := LineText(y, fmt);
    Text.JoinSpaceEnds(ws);
    Text.StripKeepsTrimmed(s);
    Text.SplitJoinSpace(ws);
  }

  lemma {:induction false} ParseAll(tokens: seq<string>, vs: seq<real>, num: string -> Option<real>)
    requires |tokens| == |vs|
    requires forall i :: 0 <= i < |tokens| ==> num(tokens[i]) == Some(vs[i])
    ensures ParseNumbers(tokens, num) == Ok(vs)
    decreases |tokens|
  {
    if tokens != [] {
      ParseAll(tokens[1..], vs[1..], num);
      assert vs == [vs[0]] + vs[1..];
    }
  }

  /** A written line reads back as the label line it was written from. */
  lemma ReadLineText(y: Yolo, num: string -> Option<real>, fmt: real -> string)
    requires ExactLine(num, fmt, y)
    ensures ReadLine(LineText(y, fmt), num) == Read(y)
  {
    FieldsOfLineText(y, fmt);
    ClassifyLineWords(y, num, fmt);
  }

  /** The five fields of a written line classify as the label line itself. */
  lemma ClassifyLineWords(y: Yolo, num: string -> Option<real>, fmt: real -> string)
    requires ExactLine(num, fmt, y)
    ensures Classify(LineWords(y, fmt), num) == Read(y)
  {
    var parts := LineWords(y, fmt);
    var vs := [y.cls as real, y.cx, y.cy, y.bw, y.bh];
    ParseAll(parts, vs, num);
    TruncOfInteger(y.cls);
  }

  /** The encoder's output shape (app.py:91-99): for a non-empty list, the
      saved file holds exactly one line per box, in input order, and line i
      has the fields int(cid), cx, cy, bw, bh of box i. */
  lemma SavedLines(bs: seq<Box>, w: nat, h: nat, fmt: real -> string)
    requires w > 0 && h > 0 && bs != []
    requires forall x: real :: Text.IsWord(fmt(x))
    ensures SaveLabels(bs, w, h, fmt).Ok?
    ensures SaveLabels(bs, w, h, fmt).value.Some?
    ensures |Text.Lines(SaveLabels(bs, w, h, fmt).value.value)| == |bs|
    ensures forall i :: 0 <= i < |bs| ==>
              Fields(Text.Lines(SaveLabels(bs, w, h, fmt).value.value)[i])
              == [Text.IntText(Trunc(bs[i].cls)),
                  fmt(((bs[i].x1 + bs[i].x2) / 2.0) / w as real),
                  fmt(((bs[i].y1 + bs[i].y2) / 2.0) / h as real),
                  fmt((bs[i].x2 - bs[i].x1) / w as real),
                  fmt((bs[i].y2 - bs[i].y1) / h as real)]
  {
    var ys := EncodeAll(bs, w, h);
    var lines := RenderLines(ys, fmt);
    forall i | 0 <= i < |lines| ensures Text.NoBreak(lines[i]) {
      LineWordsAreWords(ys[i], fmt);
      Text.JoinSpaceNoBreak(LineWords(ys[i], fmt));
    }
    Text.LinesOfTerminated(lines);
    forall i | 0 <= i < |bs|
      ensures Fields(lines[i]) == LineWords(ys[i], fmt)
    {
      FieldsOfLineText(ys[i], fmt);
    }
  }

  /** Collecting the readings "line i was read as the encoding of box i"
      gives back the boxes, classes through int(). */
  lemma {:induction false} CollectEncoded(bs: seq<Box>, rs: seq<LineReading>, w: nat, h: nat)
    requires w > 0 && h > 0
    requires |rs| == |bs|
    requires forall i :: 0 <= i < |bs| ==> rs[i] == Read(EncodeBox(bs[i], w, h))
    ensures Collect(rs, w, h) == Ok(AsRead(bs))
    decreases |bs|
  {
    if bs != [] {
      DecodeEncode(bs[0], w, h);
      CollectEncoded(bs[1..], rs[1..], w, h);
      assert AsRead(bs) == [WithIntClass(bs[0])] + AsRead(bs[1..]);
    }
  }

  /** Saving boxes and reading the file back gives the same boxes, with
      their classes passed through int(), whenever every numeral written
      reads back exactly. An empty list round-trips through a removed file. */
  lemma SaveThenRead(bs: seq<Box>, w: nat, h: nat, num: string -> Option<real>, fmt: real -> string)
    requires bs != [] ==> w > 0 && h > 0
    requires forall i :: 0 <= i < |bs| ==> ExactLine(num, fmt, EncodeBox(bs[i], w, h))
    ensures SaveLabels(bs, w, h, fmt).Ok?
    ensures ReadLabels(SaveLabels(bs, w, h, fmt).value, w, h, num) == Ok(AsRead(bs))
  {
    if bs != [] {
      var ys := EncodeAll(bs, w, h);
      var lines := RenderLines(ys, fmt);
      forall i | 0 <= i < |lines| ensures Text.NoBreak(lines[i]) {
        LineWordsAreWords(ys[i], fmt);
        Text.JoinSpaceNoBreak(LineWords(ys[i], fmt));
      }
      Text.LinesOfTerminated(lines);
      var rs := Readings(lines, Reader(num));
      forall i | 0 <= i < |bs| ensures rs[i] == Read(ys[i]) {
        ReadLineText(ys[i], num, fmt);
      }
      CollectEncoded(bs, rs, w, h);
    } else {
      assert AsRead(bs) == [];
    }
  }
}

=== FILE: order.dfy ===
/** Python's ordering of str values (code point by code point, a proper
    prefix first) and sorted() over lists of strings. */
module Order {

  /** a <= b for Python strings. */
  predicate Le(a: string, b: string)
    decreases |a|
  {
    if a == [] then true
    else if b == [] then false
    else if a[0] != b[0] then a[0] < b[0]
    else Le(a[1..], b[1..])
  }

  lemma {:induction false} LeReflexive(a: string)
    ensures Le(a, a)
    decreases |a|
  {
    if a != [] {
      LeReflexive(a[1..]);
    }
  }

  lemma {:induction false} LeAntisymmetric(a: string, b: string)
    requires Le(a, b) && Le(b, a)
    ensures a == b
    decreases |a|
  {
    if a != [] && b != [] {
      LeAntisymmetric(a[1..], b[1..]);
      assert a == [a[0]] + a[1..] && b == [b[0]] + b[1..];
    }
  }

  lemma {:induction false} LeTransitive(a: string, b: string, c: string)
    requires Le(a, b) && Le(b, c)
    ensures Le(a, c)
    decreases |a|
  {
    if a != [] && b != [] && c != [] && a[0] == b[0] && b[0] == c[0] {
      LeTransitive(a[1..], b[1..], c[1..]);
    }
  }

  lemma {:induction false} LeTotal(a: string, b: string)
    ensures Le(a, b) || Le(b, a)
    decreases |a|
  {
    if a != [] && b != [] && a[0] == b[0] {
      LeTotal(a[1..], b[1..]);
    }
  }

  /** No value occurs twice. */
  predicate Distinct<T(==)>(s: seq<T>) {
    forall i, j :: 0 <= i < j < |s| ==> s[i] != s[j]
  }

  lemma DistinctTail<T>(s: seq<T>)
    requires s != [] && Distinct(s)
    ensures Distinct(s[1..]) && s[0] !in s[1..]
  {
    assert forall i :: 0 <= i < |s| - 1 ==> s[1..][i] == s[i + 1];
  }

  predicate Sorted(s: seq<string>) {
    forall i, j :: 0 <= i < j < |s| ==> Le(s[i], s[j])
  }

  /** Every element of `s` is at least `x`. */
  predicate AllAtLeast(x: string, s: seq<string>) {
    forall i :: 0 <= i < |s| ==> Le(x, s[i])
  }

  lemma AllAtLeastByMultiset(x: string, s: seq<string>, t: seq<string>)
    requires AllAtLeast(x, s)
    requires multiset(t) <= multiset(s)
    ensures AllAtLeast(x, t)
  {
    forall i | 0 <= i < |t| ensures Le(x, t[i]) {
      assert t[i] in multiset(t);
      assert t[i] in multiset(s);
      var j :| 0 <= j < |s| && s[j] == t[i];
    }
  }

  lemma SortedCons(x: string, s: seq<string>)
    requires Sorted(s) && AllAtLeast(x, s)
    ensures Sorted([x] + s)
  {
    var r := [x] + s;
    forall i, j | 0 <= i < j < |r| ensures Le(r[i], r[j]) {
      if i > 0 {
        assert r[i] == s[i - 1] && r[j] == s[j - 1];
      } else {
        assert r[j] == s[j - 1];
      }
    }
  }

  /** Inserts `x` into a sorted list, before the first element it is at most. */
  function Insert(x: string, s: seq<string>): (r: seq<string>)
    requires Sorted(s)
    ensures Sorted(r)
    ensures multiset(r) == multiset(s) + multiset{x}
    decreases |s|
  {
    if s == [] then
      [x]
    else if Le(x, s[0]) then
      InsertFront(x, s);
      [x] + s
    else
      var tail := Insert(x, s[1..]);
      InsertBehind(x, s, tail);
      [s[0]] + tail
  }

  lemma InsertFront(x: string, s: seq<string>)
    requires Sorted(s) && s != [] && Le(x, s[0])
    ensures Sorted([x] + s)
    ensures multiset([x] + s) == multiset(s) + multiset{x}
  {
    forall i | 0 <= i < |s| ensures Le(x, s[i]) {
      if i > 0 {
        LeTransitive(x, s[0], s[i]);
      }
    }
    SortedCons(x, s);
  }

  lemma InsertBehind(x: string, s: seq<string>, tail: seq<string>)
    requires Sorted(s) && s != [] && !Le(x, s[0])
    requires Sorted(tail) && multiset(tail) == multiset(s[1..]) + multiset{x}
    ensures Sorted([s[0]] + tail)
    ensures multiset([s[0]] + tail) == multiset(s) + multiset{x}
  {
    assert s == [s[0]] + s[1..];
    LeTotal(x, s[0]);
    assert AllAtLeast(s[0], s[1..] + [x]);
    assert multiset(s[1..] + [x]) == multiset(s[1..]) + multiset{x};
    AllAtLeastByMultiset(s[0], s[1..] + [x], tail);
    SortedCons(s[0], tail);
  }

  /** Python's sorted() on a list of strings. */
  function Sort(s: seq<string>): (r: seq<string>)
    ensures Sorted(r)
    ensures multiset(r) == multiset(s)
  {
    if s == [] then []
    else
      assert s == [s[0]] + s[1..];
      Insert(s[0], Sort(s[1..]))
  }

  /** Two sorted arrangements of one multiset start with the same string. */
  lemma SortedHeadsEqual(a: seq<string>, b: seq<string>)
    requires Sorted(a) && Sorted(b)
    requires multiset(a) == multiset(b) && a != []
    ensures b != [] && a[0] == b[0]
  {
    assert a[0] in multiset(b);
    var j :| 0 <= j < |b| && b[j] == a[0];
    assert b[0] in multiset(a);
    var i :| 0 <= i < |a| && a[i] == b[0];
    if j == 0 {
      LeReflexive(a[0]);
    }
    if i == 0 {
      LeReflexive(b[0]);
    }
    LeAntisymmetric(a[0], b[0]);
  }

  lemma MultisetTails<T>(a: seq<T>, b: seq<T>)
    requires multiset(a) == multiset(b)
    requires a != [] && b != [] && a[0] == b[0]
    ensures multiset(a[1..]) == multiset(b[1..])
  {
    assert a == [a[0]] + a[1..];
    assert b == [b[0]] + b[1..];
    calc {
      multiset(a[1..]);
      multiset(a) - multiset{a[0]};
      multiset(b) - multiset{b[0]};
      multiset(b[1..]);
    }
  }

  /** A multiset of strings has exactly one sorted arrangement. */
  lemma {:induction false} SortedUnique(a: seq<string>, b: seq<string>)
    requires Sorted(a) && Sorted(b)
    requires multiset(a) == multiset(b)
    ensures a == b
    decreases |a|
  {
    if a == [] {
      assert |b| == |multiset(b)| == 0;
    } else {
      SortedHeadsEqual(a, b);
      MultisetTails(a, b);
      SortedUnique(a[1..], b[1..]);
      assert a == [a[0]] + a[1..] && b == [b[0]] + b[1..];
    }
  }

  /** sorted() depends only on which strings it is given, not on their order. */
  lemma SortPermutationInvariant(a: seq<string>, b: seq<string>)
    requires multiset(a) == multiset(b)
    ensures Sort(a) == Sort(b)
  {
    SortedUnique(Sort(a), Sort(b));
  }
}

=== FILE: project.dfy ===
/** Dataset discovery and the project endpoints of app.py: which files count
    as images (`list_images`), which root and split a project opens on
    (`open_project`), switching splits (`change_split`), the split list of
    `project_info`, and reading and saving one image's labels
    (`get_labels`, `save_labels`). The server's global `state` is the value
    `ProjectState`, passed in and returned. */
module Project {
  import opened Wrappers
  import Text
  import Order
  import LabelCodec
  import opened Host

  // ---------------------------------------------------------------------------
  // list_images (app.py:26-32)

  /** f.lower().endswith((".jpg", ".jpeg", ".png")) */
  predicate IsImageName(f: string) {
    var l := Text.Lower(f);
    Text.EndsWith(l, ".jpg") || Text.EndsWith(l, ".jpeg") || Text.EndsWith(l, ".png")
  }

  function FilterImages(paths: seq<string>): seq<string> {
    if paths == [] then []
    else if IsImageName(paths[0]) then [paths[0]] + FilterImages(paths[1..])
    else FilterImages(paths[1..])
  }

  lemma {:induction false} FilterImagesCount(paths: seq<string>, x: string)
    ensures multiset(FilterImages(paths))[x] == if IsImageName(x) then multiset(paths)[x] else 0
    decreases |paths|
  {
    if paths != [] {
      FilterImagesCount(paths[1..], x);
      assert paths == [paths[0]] + paths[1..];
    }
  }

  /** list_images: the globbed paths with an image extension, in sorted
      order. */
  function ListImages(globbed: seq<string>): (r: seq<string>)
    ensures Order.Sorted(r)
    ensures forall x :: x in r <==> x in globbed && IsImageName(x)
    ensures forall x :: multiset(r)[x] == if IsImageName(x) then multiset(globbed)[x] else 0
  {
    var kept := FilterImages(globbed);
    forall x ensures multiset(kept)[x] == if IsImageName(x) then multiset(globbed)[x] else 0 {
      FilterImagesCount(globbed, x);
    }
    Order.Sort(kept)
  }

  /** The image list does not depend on the order in which the filesystem
      lists a directory. */
  lemma ListImagesIgnoresListingOrder(a: seq<string>, b: seq<string>)
    requires multiset(a) == multiset(b)
    ensures ListImages(a) == ListImages(b)
  {
    var ra, rb := ListImages(a), ListImages(b);
    assert forall x :: multiset(ra)[x] == multiset(rb)[x];
    assert multiset(ra) == multiset(rb);
    Order.SortedUnique(ra, rb);
  }

  /** The images of directory `dir`. */
  function ImagesIn(disk: Disk, dir: string): seq<string> {
    ListImages(disk.glob(dir))
  }

  // ---------------------------------------------------------------------------
  // Project state and layout

  /** The server's `state` (app.py:102-111). */
  datatype ProjectState = ProjectState(root: string, mode: string, split: string, images: seq<string>)

  const InitialState := ProjectState("", "images", "train", [])

  /** The split names a dataset may have, in the order they are probed. */
  const Splits: seq<string> := ["train", "val", "test"]

  function SplitDir(root: string, split: string): string {
    root + "/images/" + split
  }

  function ImagesDir(root: string): string {
    root + "/images"
  }

  /** The position of a split name in Splits, |Splits| for any other name. */
  function SplitRank(s: string): (k: nat)
    ensures k <= |Splits|
    ensures k < |Splits| <==> s in Splits
    ensures k < |Splits| ==> Splits[k] == s
  {
    if s == "train" then 0 else if s == "val" then 1 else if s == "test" then 2 else 3
  }

  /** Split names in strictly increasing order train, val, test. */
  predicate InSplitOrder(ss: seq<string>) {
    forall i, j :: 0 <= i < j < |ss| ==> SplitRank(ss[i]) < SplitRank(ss[j])
  }

  /** The splits whose image directory exists, in the order train, val, test:
      the subsequence of Splits whose directories exist. */
  function PresentSplits(disk: Disk, root: string): (r: seq<string>)
    ensures forall s :: s in r <==> s in Splits && disk.isDir(SplitDir(root, s))
    ensures InSplitOrder(r)
    ensures Order.Distinct(r)
  {
    (if disk.isDir(SplitDir(root, "train")) then ["train"] else [])
    + (if disk.isDir(SplitDir(root, "val")) then ["val"] else [])
    + (if disk.isDir(SplitDir(root, "test")) then ["test"] else [])
  }

  // ---------------------------------------------------------------------------
  // open_project (app.py:236-273)

  predicate IsDatasetMode(mode: string) {
    mode == "yolo" || mode == "rfdetr"
  }

  /** The project root open_project settles on (app.py:242-250), given the
      normalised folder, the YOLO root detected from it ("" when none) and
      whether the folder has an images/ directory. */
  function ChooseRoot(mode: string, path: string, detected: string, pathHasImages: bool): string {
    if IsDatasetMode(mode) && detected != "" then detected
    else if IsDatasetMode(mode) && pathHasImages then path
    else if mode == "images" && detected != "" then detected
    else path
  }

  /** The detected YOLO root wins exactly for the three known modes; the
      images/ probe on the folder never changes the outcome. */
  lemma ChooseRootCases(mode: string, path: string, detected: string, pathHasImages: bool)
    ensures ChooseRoot(mode, path, detected, pathHasImages)
            == if detected != "" && (mode == "yolo" || mode == "rfdetr" || mode == "images") then detected else path
  {
  }

  /** The split open_project selects (app.py:257-259) among the present
      splits, given each split's images. */
  function ChooseSplit(present: seq<string>, images: string -> seq<string>): (r: string)
    ensures r == "train" || r in present
    // train wins whenever it has images
    ensures "train" in present && images("train") != [] ==> r == "train"
    // a split with images is chosen whenever there is one: the first such
    ensures (exists s :: s in present && images(s) != []) ==>
              && r in present && images(r) != []
              && (r != "train" ==>
                    exists k :: (0 <= k < |present| && present[k] == r
                                 && forall j :: 0 <= j < k ==> images(present[j]) == []))
    // otherwise the first present split, or train when none is present
    ensures (forall s :: s in present ==> images(s) == []) ==>
              r == if present == [] then "train" else present[0]
  {
    var nonEmpty := FirstNonEmpty(present, images);
    if "train" in present && images("train") != [] then "train"
    else if nonEmpty < |present| then present[nonEmpty]
    else if present != [] then present[0]
    else "train"
  }

  /** The index of the first split with images, or |present| when none has. */
  function FirstNonEmpty(present: seq<string>, images: string -> seq<string>): (k: nat)
    ensures k <= |present|
    ensures forall j :: 0 <= j < k ==> images(present[j]) == []
    ensures k < |present| ==> images(present[k]) != []
  {
    if present == [] then 0
    else if images(present[0]) != [] then 0
    else 1 + FirstNonEmpty(present[1..], images)
  }

  /** The images of each split of the dataset at `root`. */
  function SplitImages(disk: Disk, root: string): string -> seq<string> {
    s => ImagesIn(disk, SplitDir(root, s))
  }

  datatype OpenReq = OpenReq(path: string, mode: string)

  /** open_project: the new project state, or "Folder not found" with the
      state left as it was. `detected` is yolo_root of the normalised folder,
      "" when it finds none. */
  function OpenProject(req: OpenReq, detected: string, disk: Disk): (r: Result<ProjectState, ApiError>)
    ensures !disk.isDir(Norm(disk, req.path)) <==> r == Err(Http(400, "Folder not found"))
    ensures r.Ok? ==> r.value.mode == req.mode
    ensures r.Ok? ==> r.value.root == if detected != "" && (req.mode == "yolo" || req.mode == "rfdetr" || req.mode == "images")
                                      then detected else Norm(disk, req.path)
    ensures r.Ok? && !disk.isDir(ImagesDir(r.value.root)) ==>
              r.value.split == "train" && r.value.images == ImagesIn(disk, r.value.root)
    ensures r.Ok? && disk.isDir(ImagesDir(r.value.root)) ==>
              var present := PresentSplits(disk, r.value.root);
              && r.value.split == ChooseSplit(present, SplitImages(disk, r.value.root))
              && r.value.images == (if r.value.split in present then ImagesIn(disk, SplitDir(r.value.root, r.value.split)) else [])
  {
    var path := Norm(disk, req.path);
    if !disk.isDir(path) then
      Err(Http(400, "Folder not found"))
    else
      var root := ChooseRoot(req.mode, path, detected, disk.isDir(ImagesDir(path)));
      ChooseRootCases(req.mode, path, detected, disk.isDir(ImagesDir(path)));
      if disk.isDir(ImagesDir(root)) then
        var present := PresentSplits(disk, root);
        var images := SplitImages(disk, root);
        var split := ChooseSplit(present, images);
        Ok(ProjectState(root, req.mode, split, if split in present then images(split) else []))
      else
        Ok(ProjectState(root, req.mode, "train", ImagesIn(disk, root)))
  }

  /** An opened dataset shows images whenever any of its splits has some. */
  lemma OpenProjectShowsImages(req: OpenReq, detected: string, disk: Disk)
    requires OpenProject(req, detected, disk).Ok?
    requires disk.isDir(ImagesDir(OpenProject(req, detected, disk).value.root))
    requires exists s :: s in Splits
                         && disk.isDir(SplitDir(OpenProject(req, detected, disk).value.root, s))
                         && ImagesIn(disk, SplitDir(OpenProject(req, detected, disk).value.root, s)) != []
    ensures OpenProject(req, detected, disk).value.images != []
  {
    var st := OpenProject(req, detected, disk).value;
    var present := PresentSplits(disk, st.root);
    var images := SplitImages(disk, st.root);
    var s :| s in Splits && disk.isDir(SplitDir(st.root, s)) && ImagesIn(disk, SplitDir(st.root, s)) != [];
    assert s in present && images(s) != [];
  }

  // ---------------------------------------------------------------------------
  // change_split (app.py:276-287)

  /** change_split: the requested split ("train" when the payload has none)
      with its images when its directory exists; otherwise "train" with no
      images. */
  function ChangeSplit(state: ProjectState, requested: Option<string>, disk: Disk): (r: Result<ProjectState, ApiError>)
    ensures state.root == "" <==> r == Err(NoProject)
    ensures r.Ok? ==> r.value.root == state.root && r.value.mode == state.mode
    ensures r.Ok? ==>
              var split := if requested.Some? then requested.value else "train";
              if disk.isDir(SplitDir(state.root, split))
              then r.value.split == split && r.value.images == ImagesIn(disk, SplitDir(state.root, split))
              else r.value.split == "train" && r.value.images == []
  {
    if state.root == "" then
      Err(NoProject)
    else
      var split := match requested case Some(s) => s case None => "train";
      if disk.isDir(SplitDir(state.root, split)) then
        Ok(state.(split := split, images := ImagesIn(disk, SplitDir(state.root, split))))
      else
        Ok(state.(split := "train", images := []))
  }

  /** Switching to the same split twice is switching once. */
  lemma ChangeSplitIdempotent(state: ProjectState, requested: Option<string>, disk: Disk)
    requires ChangeSplit(state, requested, disk).Ok?
    ensures ChangeSplit(ChangeSplit(state, requested, disk).value, requested, disk)
            == ChangeSplit(state, requested, disk)
  {
  }

  /** A request for a missing split leaves the project on train with no image
      list, even when train has images. */
  lemma ChangeSplitFallback(state: ProjectState, split: string, disk: Disk)
    requires state.root != ""
    requires !disk.isDir(SplitDir(state.root, split))
    ensures ChangeSplit(state, Some(split), disk) == Ok(state.(split := "train", images := []))
  {
  }

  // ---------------------------------------------------------------------------
  // project_info (app.py:290-308)

  /** The split names project_info reports. */
  function InfoSplits(state: ProjectState, disk: Disk): (r: Result<seq<string>, ApiError>)
    ensures state.root == "" <==> r == Err(NoProject)
    ensures r.Ok? && !disk.isDir(ImagesDir(state.root)) ==> r.value == ["train"]
    ensures r.Ok? && disk.isDir(ImagesDir(state.root)) ==>
              && r.value == PresentSplits(disk, state.root)
              && forall s :: s in r.value <==> s in Splits && disk.isDir(SplitDir(state.root, s))
  {
    if state.root == "" then Err(NoProject)
    else if disk.isDir(ImagesDir(state.root)) then Ok(PresentSplits(disk, state.root))
    else Ok(["train"])
  }

  /** After open_project, project_info lists the split the project opened on,
      unless the dataset has an images/ directory without any split in it. */
  lemma OpenedSplitIsListed(req: OpenReq, detected: string, disk: Disk)
    requires OpenProject(req, detected, disk).Ok?
    requires OpenProject(req, detected, disk).value.root != ""
    requires disk.isDir(ImagesDir(OpenProject(req, detected, disk).value.root)) ==>
               PresentSplits(disk, OpenProject(req, detected, disk).value.root) != []
    ensures InfoSplits(OpenProject(req, detected, disk).value, disk).Ok?
    ensures OpenProject(req, detected, disk).value.split
            in InfoSplits(OpenProject(req, detected, disk).value, disk).value
  {
  }

  // ---------------------------------------------------------------------------
  // get_labels and save_labels (app.py:319-351)

  /** The directory of a split's label files. */
  function LabelDir(root: string, split: string): string {
    root + "/labels/" + split
  }

  /** f"{root}/labels/{split}/{base}.txt" with base the image file name
      without its extension (app.py:328-329): a file directly in the split's
      label directory, named after the image. */
  function LabelPath(root: string, split: string, image: string): (p: string)
    ensures Text.EndsWith(p, ".txt")
    ensures Text.Basename(p) == Text.Stem(Text.Basename(image)) + ".txt"
    ensures p == LabelDir(root, split) + "/" + Text.Basename(p)
  {
    var name := Text.Stem(Text.Basename(image)) + ".txt";
    Text.StemOfBasename(image);
    Text.BasenameOfJoin(LabelDir(root, split), name);
    LabelDir(root, split) + "/" + name
  }

  datatype Labels = Labels(rects: seq<LabelCodec.Box>, width: nat, height: nat, hasLabelFile: bool)

  /** get_labels: the image's boxes in pixels, its size, and whether a
      non-empty label file exists. */
  function GetLabels(state: ProjectState, imagePath: string, split: string, disk: Disk, num: string -> Option<real>): (r: Result<Labels, ApiError>)
    ensures state.root == "" <==> r == Err(NoProject)
    ensures state.root != "" && !IsFile(disk, Norm(disk, imagePath)) <==> r == Err(Http(404, "Image missing"))
    ensures r.Ok? ==>
              var img := Norm(disk, imagePath);
              var file := disk.files(LabelPath(state.root, split, img));
              && (r.value.width, r.value.height) == disk.imageSize(img)
              && r.value.hasLabelFile == LabelCodec.HasLabelFile(file)
              && LabelCodec.ReadLabels(file, r.value.width, r.value.height, num) == Ok(r.value.rects)
              && (!r.value.hasLabelFile ==> r.value.rects == [])
    ensures state.root != "" && IsFile(disk, Norm(disk, imagePath)) ==>
              var img := Norm(disk, imagePath);
              var read := LabelCodec.ReadLabels(disk.files(LabelPath(state.root, split, img)),
                                                disk.imageSize(img).0, disk.imageSize(img).1, num);
              && (r.Ok? <==> read.Ok?)
              && (r.Err? ==> r == Err(Codec(read.error)))
  {
    if state.root == "" then
      Err(NoProject)
    else
      var img := Norm(disk, imagePath);
      if !IsFile(disk, img) then
        Err(Http(404, "Image missing"))
      else
        var (w, h) := disk.imageSize(img);
        var file := disk.files(LabelPath(state.root, split, img));
        match LabelCodec.ReadLabels(file, w, h, num)
        case Err(e) => Err(Codec(e))
        case Ok(rects) => Ok(Labels(rects, w, h, LabelCodec.HasLabelFile(file)))
  }

  datatype SaveReq = SaveReq(imagePath: string, split: string, rects: seq<LabelCodec.Box>)

  /** save_labels: the disk after the image's label file was written, or
      removed when there is no box; every other query of the disk answers as
      before. */
  function SaveLabels(state: ProjectState, req: SaveReq, disk: Disk, fmt: real -> string): (r: Result<Disk, ApiError>)
    ensures state.root == "" <==> r == Err(NoProject)
    ensures state.root != "" && !IsFile(disk, Norm(disk, req.imagePath)) <==> r == Err(Http(404, "Image missing"))
    ensures r.Ok? ==>
              var lbl := LabelPath(state.root, req.split, Norm(disk, req.imagePath));
              && (forall q :: q != lbl ==> r.value.files(q) == disk.files(q))
              && (req.rects == [] <==> r.value.files(lbl).None?)
    ensures state.root != "" && IsFile(disk, Norm(disk, req.imagePath)) ==>
              var img := Norm(disk, req.imagePath);
              var (w, h) := disk.imageSize(img);
              && (r.Err? <==> req.rects != [] && (w == 0 || h == 0))
              && (r.Err? ==> r == Err(Codec(LabelCodec.ZeroDimension)))
              && (r.Ok? ==> r.value.files(LabelPath(state.root, req.split, img))
                            == LabelCodec.SaveLabels(req.rects, w, h, fmt).value)
              && (r.Ok? ==> r.value == WithFile(disk, LabelPath(state.root, req.split, img),
                                                LabelCodec.SaveLabels(req.rects, w, h, fmt).value))
  {
    if state.root == "" then
      Err(NoProject)
    else
      var img := Norm(disk, req.imagePath);
      if !IsFile(disk, img) then
        Err(Http(404, "Image missing"))
      else
        var (w, h) := disk.imageSize(img);
        var lbl := LabelPath(state.root, req.split, img);
        match LabelCodec.SaveLabels(req.rects, w, h, fmt)
        case Err(e) => Err(Codec(e))
        case Ok(f) => Ok(WithFile(disk, lbl, f))
  }

  /** Saving an image's labels and loading them again returns the saved
      boxes (classes through int()) whenever every numeral written reads back
      exactly; has_label_file is true exactly when there was a box to save.
      An empty list needs no image size: nothing is divided. */
  lemma SaveThenGetLabels(state: ProjectState, req: SaveReq, disk: Disk, fmt: real -> string, num: string -> Option<real>)
    requires state.root != "" && IsFile(disk, Norm(disk, req.imagePath))
    requires Norm(disk, req.imagePath) != LabelPath(state.root, req.split, Norm(disk, req.imagePath))
    requires req.rects != [] ==>
               disk.imageSize(Norm(disk, req.imagePath)).0 > 0 && disk.imageSize(Norm(disk, req.imagePath)).1 > 0
    requires forall i :: 0 <= i < |req.rects| ==>
               LabelCodec.ExactLine(num, fmt, LabelCodec.EncodeBox(req.rects[i],
                 disk.imageSize(Norm(disk, req.imagePath)).0, disk.imageSize(Norm(disk, req.imagePath)).1))
    ensures SaveLabels(state, req, disk, fmt).Ok?
    ensures GetLabels(state, req.imagePath, req.split, SaveLabels(state, req, disk, fmt).value, num)
            == Ok(Labels(LabelCodec.AsRead(req.rects),
                         disk.imageSize(Norm(disk, req.imagePath)).0,
                         disk.imageSize(Norm(disk, req.imagePath)).1,
                         req.rects != []))
  {
    var img := Norm(disk, req.imagePath);
    var (w, h) := disk.imageSize(img);
    LabelCodec.SaveThenRead(req.rects, w, h, num, fmt);
  }
}

=== FILE: settings.dfy ===
/** The two project-wide lists the server keeps: the class names
    (`set_classes`) and the detector model library (`import_model`). Both
    are the module globals of app.py, passed in and returned as values. */
module Settings {
  import opened Wrappers
  import Text
  import Order
  import opened Host

  // ---------------------------------------------------------------------------
  // set_classes (app.py:359-366)

  const DefaultClassNames: seq<string> := ["class0", "class1", "class2"]

  /** A name that strips to nothing: empty or all whitespace. */
  predicate Blank(name: string) {
    Text.Strip(name) == []
  }

  /** [n.strip() for n in names if n.strip()] */
  function CleanNames(names: seq<string>): (r: seq<string>)
    ensures |r| <= |names|
  {
    if names == [] then
      []
    else
      var n := Text.Strip(names[0]);
      if n != [] then [n] + CleanNames(names[1..]) else CleanNames(names[1..])
  }

  /** One step of the cleaning: the first name, if it is not blank, then the
      cleaned rest. */
  lemma CleanNamesStep(names: seq<string>)
    requires names != []
    ensures CleanNames(names) == (if Blank(names[0]) then [] else [Text.Strip(names[0])]) + CleanNames(names[1..])
  {
  }

  /** A usable class name: non-empty, with no surrounding whitespace. */
  predicate ClassName(x: string) {
    x != [] && Text.Trimmed(x)
  }

  predicate ClassNames(s: seq<string>) {
    forall i :: 0 <= i < |s| ==> ClassName(s[i])
  }

  lemma ClassNamesCons(x: string, rest: seq<string>)
    requires ClassName(x) && ClassNames(rest)
    ensures ClassNames([x] + rest)
  {
    forall i | 0 <= i < |[x] + rest|
      ensures ClassName(([x] + rest)[i])
    {
      if i > 0 {
        assert ([x] + rest)[i] == rest[i - 1];
      }
    }
  }

  /** Every kept name is stripped and non-empty. */
  lemma {:induction false} CleanNamesStripped(names: seq<string>)
    ensures ClassNames(CleanNames(names))
    decreases |names|
  {
    if names != [] {
      CleanNamesStripped(names[1..]);
      CleanNamesStep(names);
      if !Blank(names[0]) {
        ClassNamesCons(Text.Strip(names[0]), CleanNames(names[1..]));
      }
    }
  }

  /** No name is kept exactly when every name is blank. */
  lemma {:induction false} CleanNamesEmpty(names: seq<string>)
    ensures CleanNames(names) == [] <==> forall i :: 0 <= i < |names| ==> Blank(names[i])
    decreases |names|
  {
    if names != [] {
      CleanNamesEmpty(names[1..]);
      assert forall i :: 1 <= i < |names| ==> names[i] == names[1..][i - 1];
    }
  }

  /** Cleaning keeps the order of the names: cleaning a concatenation is
      concatenating the cleaned parts. */
  lemma {:induction false} CleanNamesConcat(a: seq<string>, b: seq<string>)
    ensures CleanNames(a + b) == CleanNames(a) + CleanNames(b)
    decreases |a|
  {
    if a == [] {
      assert a + b == b;
    } else {
      assert (a + b)[0] == a[0];
      assert (a + b)[1..] == a[1..] + b;
      CleanNamesConcat(a[1..], b);
    }
  }

  /** Every name that is not blank survives, stripped. */
  lemma {:induction false} CleanNamesKeeps(names: seq<string>, i: nat)
    requires i < |names| && !Blank(names[i])
    ensures Text.Strip(names[i]) in CleanNames(names)
    decreases i
  {
    CleanNamesStep(names);
    if i > 0 {
      assert names[i] == names[1..][i - 1];
      CleanNamesKeeps(names[1..], i - 1);
    }
  }

  /** Every kept name is the stripped form of a submitted one. */
  lemma {:induction false} CleanNamesFrom(names: seq<string>, x: string)
    requires x in CleanNames(names)
    ensures exists i :: 0 <= i < |names| && x == Text.Strip(names[i])
    decreases |names|
  {
    if x != Text.Strip(names[0]) {
      CleanNamesFrom(names[1..], x);
      var i :| 0 <= i < |names[1..]| && x == Text.Strip(names[1..][i]);
      assert x == Text.Strip(names[i + 1]);
    }
  }

  /** Submitting the stored list again stores the same list. */
  lemma {:induction false} CleanNamesIdempotent(names: seq<string>)
    ensures CleanNames(CleanNames(names)) == CleanNames(names)
    decreases |names|
  {
    if names != [] {
      CleanNamesIdempotent(names[1..]);
      var n := Text.Strip(names[0]);
      var rest := CleanNames(names[1..]);
      if n != [] {
        Text.StripKeepsTrimmed(n);
        CleanNamesConcat([n], rest);
      }
    }
  }

  /** set_classes: the new class list, or the 400 rejection when no name is
      left. */
  function SetClasses(names: seq<string>): (r: Result<seq<string>, ApiError>)
    ensures r.Err? <==> forall i :: 0 <= i < |names| ==> Blank(names[i])
    ensures r.Err? ==> r.error == Http(400, "Class names cannot be empty")
    ensures r.Ok? ==> r.value != [] && r.value == CleanNames(names)
    ensures r.Ok? ==> ClassNames(r.value)
  {
    var cleaned := CleanNames(names);
    CleanNamesStripped(names);
    CleanNamesEmpty(names);
    if cleaned == [] then Err(Http(400, "Class names cannot be empty")) else Ok(cleaned)
  }

  /** The class list after a set_classes request: a rejected request leaves
      the previous list. */
  function ClassesAfter(current: seq<string>, names: seq<string>): (r: seq<string>)
    ensures SetClasses(names).Err? ==> r == current
    ensures SetClasses(names).Ok? ==> r == CleanNames(names) && r != [] && ClassNames(r)
  {
    match SetClasses(names)
    case Ok(cleaned) => cleaned
    case Err(_) => current
  }

  // ---------------------------------------------------------------------------
  // import_model (app.py:226-233)

  const DefaultModels: seq<string> := ["yolo26m.pt", "yolo26n.pt"]

  datatype Imported = Imported(models: seq<string>, selected: string)

  /** import_model: the normalised path must name a regular file; it is
      appended to the library unless already listed, and selected. */
  function ImportModel(library: seq<string>, path: Option<string>, disk: Disk): (r: Result<Imported, ApiError>)
    ensures var p := Norm(disk, (if path.Some? then path.value else ""));
            && (!IsFile(disk, p) <==> r == Err(Http(400, "Model file not found")))
            && (r.Ok? ==> r.value.selected == p && p in r.value.models)
    ensures r.Ok? ==> |library| <= |r.value.models| <= |library| + 1
                      && r.value.models[..|library|] == library
    ensures r.Ok? && r.value.selected in library ==> r.value.models == library
    ensures r.Ok? && Order.Distinct(library) ==> Order.Distinct(r.value.models)
  {
    var p := Norm(disk, (if path.Some? then path.value else ""));
    if !IsFile(disk, p) then
      Err(Http(400, "Model file not found"))
    else
      Ok(Imported(if p in library then library else library + [p], p))
  }

  /** Importing the same model twice leaves the library as importing it once. */
  lemma ImportModelIdempotent(library: seq<string>, path: Option<string>, disk: Disk)
    requires ImportModel(library, path, disk).Ok?
    ensures ImportModel(ImportModel(library, path, disk).value.models, path, disk)
            == ImportModel(library, path, disk)
  {
  }
}

=== FILE: text.dfy ===
/** The string operations of the Python runtime that the label codec and the
    project endpoints rely on: whitespace stripping and splitting, line
    iteration over a text file, ASCII lower-casing, suffix tests, path
    basenames and extensions, and integer formatting. */
module Text {

  /** Python's str.isspace() on one character: the separators of str.split()
      and str.strip(), given by their code points. */
  predicate IsSpace(c: char) {
    var n := c as int;
    || 0x09 <= n <= 0x0D || 0x1C <= n <= 0x20 || n == 0x85 || n == 0xA0 || n == 0x1680
    || 0x2000 <= n <= 0x200A || n == 0x2028 || n == 0x2029 || n == 0x202F || n == 0x205F
    || n == 0x3000
  }

  predicate NoSpace(s: string) {
    forall i :: 0 <= i < |s| ==> !IsSpace(s[i])
  }

  predicate AllSpace(s: string) {
    forall i :: 0 <= i < |s| ==> IsSpace(s[i])
  }

  /** A text-mode file (universal newlines) ends a line at '\n' or '\r'. */
  predicate IsLineBreak(c: char) {
    c == '\n' || c == '\r'
  }

  predicate NoBreak(s: string) {
    forall i :: 0 <= i < |s| ==> !IsLineBreak(s[i])
  }

  /** A word is what str.split() can return: non-empty, without whitespace. */
  predicate IsWord(s: string) {
    s != [] && NoSpace(s)
  }

  // ---------------------------------------------------------------------------
  // str.strip()

  /** s[i..] without its leading whitespace. */
  function TrimLeftFrom(s: string, i: nat): (r: string)
    requires i <= |s|
    ensures i <= |s| - |r| && r == s[|s| - |r|..]
    ensures r == [] || !IsSpace(r[0])
    ensures forall j :: i <= j < |s| - |r| ==> IsSpace(s[j])
    decreases |s| - i
  {
    if i == |s| || !IsSpace(s[i]) then s[i..] else TrimLeftFrom(s, i + 1)
  }

  /** The length of s[..j] without its trailing whitespace. */
  function SkipSpaceBack(s: string, j: nat): (k: nat)
    requires j <= |s|
    ensures k <= j
    ensures forall i :: k <= i < j ==> IsSpace(s[i])
    ensures k > 0 ==> !IsSpace(s[k - 1])
  {
    if j == 0 || !IsSpace(s[j - 1]) then j else SkipSpaceBack(s, j - 1)
  }

  function TrimLeft(s: string): (r: string)
    ensures |r| <= |s| && r == s[|s| - |r|..]
    ensures r == [] || !IsSpace(r[0])
    ensures forall i :: 0 <= i < |s| - |r| ==> IsSpace(s[i])
  {
    TrimLeftFrom(s, 0)
  }

  function TrimRight(s: string): (r: string)
    ensures |r| <= |s| && r == s[..|r|]
    ensures r == [] || !IsSpace(r[|r| - 1])
    ensures forall i :: |r| <= i < |s| ==> IsSpace(s[i])
  {
    s[..SkipSpaceBack(s, |s|)]
  }

  /** Neither starting nor ending with whitespace: what str.strip() leaves. */
  predicate Trimmed(s: string) {
    s == [] || (!IsSpace(s[0]) && !IsSpace(s[|s| - 1]))
  }

  /** `r` sits at position `i` of `s` with only whitespace before and after
      it. */
  predicate Flanked(s: string, i: nat, r: string) {
    && i + |r| <= |s|
    && r == s[i..i + |r|]
    && AllSpace(s[..i])
    && AllSpace(s[i + |r|..])
  }

  /** Python's str.strip() with no argument: the slice of `s` that is left
      once the whitespace on both sides is cut off. As that slice neither
      starts nor ends with whitespace, it is the longest such slice; it is
      empty exactly when `s` is all whitespace. */
  function Strip(s: string): (r: string)
    ensures |r| <= |s|
    ensures Trimmed(r)
    ensures exists i :: Flanked(s, i, r)
    ensures r == [] <==> AllSpace(s)
  {
    var t := TrimLeft(s);
    var r := TrimRight(t);
    assert r != [] ==> r[0] == t[0];
    assert t != [] ==> s[|s| - |t|] == t[0];
    assert r == [] ==> t == [];
    StripFlanked(s);
    r
  }

  lemma StripFlanked(s: string)
    ensures Flanked(s, |s| - |TrimLeft(s)|, TrimRight(TrimLeft(s)))
  {
    var t := TrimLeft(s);
    var r := TrimRight(t);
    var i := |s| - |t|;
    assert s[i..i + |r|] == t[..|r|];
    var before, after := s[..i], s[i + |r|..];
    assert forall j :: 0 <= j < |before| ==> before[j] == s[j];
    assert forall j :: 0 <= j < |after| ==> after[j] == t[|r| + j];
  }

  lemma StripKeepsTrimmed(s: string)
    requires Trimmed(s)
    ensures Strip(s) == s
  {
  }

  /** Stripping twice is stripping once. */
  lemma StripIdempotent(s: string)
    ensures Strip(Strip(s)) == Strip(s)
  {
    StripKeepsTrimmed(Strip(s));
  }

  // ---------------------------------------------------------------------------
  // str.split()

  /** The first position at or after `i` that holds whitespace, or |s|. */
  function SkipWord(s: string, i: nat): (k: nat)
    requires i <= |s|
    ensures i <= k <= |s|
    ensures forall j :: i <= j < k ==> !IsSpace(s[j])
    ensures k < |s| ==> IsSpace(s[k])
    decreases |s| - i
  {
    if i == |s| || IsSpace(s[i]) then i else SkipWord(s, i + 1)
  }

  /** The length of the leading run of non-whitespace characters. */
  function WordEnd(s: string): (k: nat)
    ensures k <= |s|
    ensures forall i :: 0 <= i < k ==> !IsSpace(s[i])
    ensures k < |s| ==> IsSpace(s[k])
  {
    SkipWord(s, 0)
  }

  /** Every element is a word. */
  predicate Words(ws: seq<string>) {
    forall i :: 0 <= i < |ws| ==> IsWord(ws[i])
  }

  lemma WordsCons(w: string, ws: seq<string>)
    requires IsWord(w) && Words(ws)
    ensures Words([w] + ws)
  {
    forall i | 0 <= i < |[w] + ws|
      ensures IsWord(([w] + ws)[i])
    {
      if i > 0 {
        assert ([w] + ws)[i] == ws[i - 1];
      }
    }
  }

  lemma WordsTail(ws: seq<string>)
    requires ws != [] && Words(ws)
    ensures IsWord(ws[0]) && Words(ws[1..])
  {
    forall i | 0 <= i < |ws[1..]|
      ensures IsWord(ws[1..][i])
    {
      assert ws[1..][i] == ws[i + 1];
    }
  }

  lemma AllSpaceTail(s: string)
    requires s != []
    ensures AllSpace(s) <==> IsSpace(s[0]) && AllSpace(s[1..])
  {
    assert forall i :: 0 <= i < |s[1..]| ==> s[1..][i] == s[i + 1];
  }

  /** Python's str.split() with no argument: the words of `s` in order.
      SplitSeparates and SplitInterleave show that they are its maximal runs
      of non-whitespace characters. */
  function Split(s: string): (r: seq<string>)
    ensures Words(r)
    ensures r == [] <==> AllSpace(s)
    decreases |s|
  {
    if s == [] then
      []
    else if IsSpace(s[0]) then
      AllSpaceTail(s);
      Split(s[1..])
    else
      var k := WordEnd(s);
      var rest := Split(s[k..]);
      WordsCons(s[..k], rest);
      [s[..k]] + rest
  }

  /** The whitespace around and between the words of Split(s): the leading
      run, the runs separating consecutive words, and the trailing run. */
  function SplitGaps(s: string): (gs: seq<string>)
    ensures gs != []
    decreases |s|
  {
    if s == [] then
      [[]]
    else if IsSpace(s[0]) then
      var g := SplitGaps(s[1..]);
      [[s[0]] + g[0]] + g[1..]
    else
      [[]] + SplitGaps(s[WordEnd(s)..])
  }

  /** gs[0] + ws[0] + gs[1] + ... + ws[n - 1] + gs[n]. */
  function Interleave(gs: seq<string>, ws: seq<string>): string
    requires |gs| == |ws| + 1
    decreases |ws|
  {
    if ws == [] then gs[0] else gs[0] + ws[0] + Interleave(gs[1..], ws[1..])
  }

  /** `gs` can separate `n` words: one more gap than words, every gap all
      whitespace, and every gap between two words non-empty. */
  predicate Gaps(gs: seq<string>, n: nat) {
    && |gs| == n + 1
    && (forall i :: 0 <= i < |gs| ==> AllSpace(gs[i]))
    && (forall i :: 0 < i < n ==> gs[i] != [])
  }

  /** str.split() cuts `s` into its words and the whitespace around them:
      `s` is the words interleaved with runs of whitespace, and consecutive
      words are separated by at least one whitespace character. */
  lemma {:induction false} SplitSeparates(s: string)
    ensures Gaps(SplitGaps(s), |Split(s)|)
    ensures s == Interleave(SplitGaps(s), Split(s))
    decreases |s|
  {
    if s == [] {
    } else if IsSpace(s[0]) {
      SplitSeparates(s[1..]);
      SplitSeparatesSpace(s);
    } else {
      SplitSeparates(s[WordEnd(s)..]);
      SplitSeparatesWord(s);
    }
  }

  lemma SplitSeparatesSpace(s: string)
    requires s != [] && IsSpace(s[0])
    requires Gaps(SplitGaps(s[1..]), |Split(s[1..])|)
    requires s[1..] == Interleave(SplitGaps(s[1..]), Split(s[1..]))
    ensures Gaps(SplitGaps(s), |Split(s)|)
    ensures s == Interleave(SplitGaps(s), Split(s))
  {
    var g := SplitGaps(s[1..]);
    GapsAfterSpace(s);
    assert SplitGaps(s) == [[s[0]] + g[0]] + g[1..];
    assert Split(s) == Split(s[1..]);
    InterleaveHead([s[0]], g, Split(s[1..]));
    assert s == [s[0]] + s[1..];
  }

  lemma GapsAfterSpace(s: string)
    requires s != [] && IsSpace(s[0])
    requires Gaps(SplitGaps(s[1..]), |Split(s[1..])|)
    ensures Gaps(SplitGaps(s), |Split(s)|)
  {
    var g := SplitGaps(s[1..]);
    var gs := SplitGaps(s);
    assert gs == [[s[0]] + g[0]] + g[1..];
    assert |Split(s)| == |Split(s[1..])|;
    AllSpaceTail(gs[0]);
    assert gs[0][1..] == g[0];
    assert forall i :: 0 < i < |gs| ==> gs[i] == g[i];
  }

  lemma SplitSeparatesWord(s: string)
    requires s != [] && !IsSpace(s[0])
    requires Gaps(SplitGaps(s[WordEnd(s)..]), |Split(s[WordEnd(s)..])|)
    requires s[WordEnd(s)..] == Interleave(SplitGaps(s[WordEnd(s)..]), Split(s[WordEnd(s)..]))
    ensures Gaps(SplitGaps(s), |Split(s)|)
    ensures s == Interleave(SplitGaps(s), Split(s))
  {
    var k := WordEnd(s);
    var t := s[k..];
    GapsAfterWord(s);
    SplitOfWord(s);
    InterleaveWord(s[..k], SplitGaps(t), Split(t));
    assert s == s[..k] + t;
  }

  lemma SplitOfWord(s: string)
    requires s != [] && !IsSpace(s[0])
    ensures SplitGaps(s) == [[]] + SplitGaps(s[WordEnd(s)..])
    ensures Split(s) == [s[..WordEnd(s)]] + Split(s[WordEnd(s)..])
  {
  }

  lemma InterleaveWord(w: string, g: seq<string>, ws: seq<string>)
    requires |g| == |ws| + 1
    ensures Interleave([[]] + g, [w] + ws) == w + Interleave(g, ws)
  {
    assert ([[]] + g)[1..] == g;
    assert ([w] + ws)[1..] == ws;
    assert [] + w == w;
  }

  lemma GapsAfterWord(s: string)
    requires s != [] && !IsSpace(s[0])
    requires Gaps(SplitGaps(s[WordEnd(s)..]), |Split(s[WordEnd(s)..])|)
    ensures Gaps(SplitGaps(s), |Split(s)|)
  {
    var k := WordEnd(s);
    var t := s[k..];
    var g, ws := SplitGaps(t), Split(t);
    var gs := SplitGaps(s);
    assert gs == [[]] + g;
    assert |Split(s)| == |ws| + 1;
    assert forall i :: 0 < i < |gs| ==> gs[i] == g[i - 1];
    if ws != [] {
      assert t != [] && t[0] == s[k];
      assert g[0] != [];
    }
  }

  lemma Assoc(a: string, b: string, c: string)
    ensures (a + b) + c == a + (b + c)
  {
  }

  lemma InterleaveHead(x: string, g: seq<string>, ws: seq<string>)
    requires |g| == |ws| + 1
    ensures Interleave([x + g[0]] + g[1..], ws) == x + Interleave(g, ws)
  {
    var gs := [x + g[0]] + g[1..];
    assert gs[0] == x + g[0];
    if ws != [] {
      assert gs[1..] == g[1..];
      var tail := Interleave(g[1..], ws[1..]);
      assert Interleave(gs, ws) == ((x + g[0]) + ws[0]) + tail;
      Assoc(x, g[0], ws[0]);
      Assoc(x, g[0] + ws[0], tail);
    }
  }

  /** Leading whitespace does not change the words. */
  lemma {:induction false} SplitAfterSpaces(g: string, x: string)
    requires AllSpace(g)
    ensures Split(g + x) == Split(x)
    decreases |g|
  {
    if g != [] {
      var s := g + x;
      assert s[0] == g[0];
      assert s[1..] == g[1..] + x;
      AllSpaceTail(g);
      assert Split(s) == Split(s[1..]);
      SplitAfterSpaces(g[1..], x);
    } else {
      assert g + x == x;
    }
  }

  /** A word followed by nothing or by whitespace is split off whole. */
  lemma SplitWordThen(w: string, x: string)
    requires IsWord(w)
    requires x == [] || IsSpace(x[0])
    ensures Split(w + x) == [w] + Split(x)
  {
    var s := w + x;
    assert s[0] == w[0];
    assert forall i :: 0 <= i < |w| ==> s[i] == w[i];
    if x != [] {
      assert s[|w|] == x[0];
    }
    assert WordEnd(s) == |w|;
    assert s[..|w|] == w;
    assert s[|w|..] == x;
  }

  lemma SplitWord(w: string)
    requires IsWord(w)
    ensures Split(w) == [w]
  {
    SplitWordThen(w, []);
    assert w + [] == w;
  }

  lemma InterleaveStart(gs: seq<string>, ws: seq<string>)
    requires |gs| == |ws| + 1 && gs[0] != []
    ensures Interleave(gs, ws) != [] && Interleave(gs, ws)[0] == gs[0][0]
  {
  }

  /** Words separated by whitespace as Gaps describes are exactly what
      str.split() returns: the converse of SplitSeparates. */
  lemma {:induction false} SplitInterleave(gs: seq<string>, ws: seq<string>)
    requires Words(ws) && Gaps(gs, |ws|)
    ensures Split(Interleave(gs, ws)) == ws
    decreases |ws|
  {
    if ws == [] {
    } else {
      var x := Interleave(gs[1..], ws[1..]);
      assert Interleave(gs, ws) == gs[0] + (ws[0] + x);
      SplitAfterSpaces(gs[0], ws[0] + x);
      WordsTail(ws);
      if |ws| > 1 {
        InterleaveStart(gs[1..], ws[1..]);
      } else {
        assert x == gs[1];
      }
      SplitWordThen(ws[0], x);
      assert forall i :: 0 < i < |ws| - 1 ==> gs[1..][i] == gs[i + 1];
      SplitInterleave(gs[1..], ws[1..]);
    }
  }

  /** Python's " ".join(ws). */
  function JoinSpace(ws: seq<string>): string {
    if ws == [] then []
    else if |ws| == 1 then ws[0]
    else ws[0] + " " + JoinSpace(ws[1..])
  }

  /** Splitting a space-joined list of words gives back the words. */
  lemma {:induction false} SplitJoinSpace(ws: seq<string>)
    requires Words(ws)
    ensures Split(JoinSpace(ws)) == ws
    decreases |ws|
  {
    if ws == [] {
    } else if |ws| == 1 {
      SplitWord(ws[0]);
    } else {
      var w, rest := ws[0], ws[1..];
      assert ws == [w] + rest;
      WordsTail(ws);
      SplitJoinSpace(rest);
      SplitJoinSpaceCons(w, rest);
    }
  }

  lemma SplitJoinSpaceCons(w: string, rest: seq<string>)
    requires IsWord(w) && rest != []
    requires Split(JoinSpace(rest)) == rest
    ensures Split(JoinSpace([w] + rest)) == [w] + rest
  {
    JoinSpaceCons(w, rest);
    var x := " " + JoinSpace(rest);
    assert w + " " + JoinSpace(rest) == w + x;
    SplitWordThen(w, x);
    assert x == " " + JoinSpace(rest);
    SplitAfterSpaces(" ", JoinSpace(rest));
  }

  lemma JoinSpaceCons(w: string, rest: seq<string>)
    requires rest != []
    ensures JoinSpace([w] + rest) == w + " " + JoinSpace(rest)
  {
    assert ([w] + rest)[1..] == rest;
  }

  /** A space-joined list of words starts with the first word's first
      character and ends with the last word's last character. */
  lemma {:induction false} JoinSpaceEnds(ws: seq<string>)
    requires ws != []
    requires Words(ws)
    ensures JoinSpace(ws) != []
    ensures IsWord(ws[0]) && JoinSpace(ws)[0] == ws[0][0]
    ensures IsWord(ws[|ws| - 1])
            && JoinSpace(ws)[|JoinSpace(ws)| - 1] == ws[|ws| - 1][|ws[|ws| - 1]| - 1]
    decreases |ws|
  {
    if |ws| > 1 {
      var rest := ws[1..];
      WordsTail(ws);
      JoinSpaceEnds(rest);
      assert rest[|rest| - 1] == ws[|ws| - 1];
      assert JoinSpace(ws) == ws[0] + " " + JoinSpace(rest);
    }
  }

  lemma {:induction false} JoinSpaceNoBreak(ws: seq<string>)
    requires Words(ws)
    ensures NoBreak(JoinSpace(ws))
    decreases |ws|
  {
    if |ws| > 1 {
      WordsTail(ws);
      JoinSpaceNoBreak(ws[1..]);
      assert forall i :: 0 <= i < |ws[0]| ==> !IsSpace(ws[0][i]);
    }
  }

  // ---------------------------------------------------------------------------
  // for line in open(path): ...

  /** The length of the leading run of characters that are not line breaks. */
  function LineEnd(s: string): (k: nat)
    ensures k <= |s|
    ensures forall i :: 0 <= i < k ==> !IsLineBreak(s[i])
    ensures k < |s| ==> IsLineBreak(s[k])
  {
    if s == [] || IsLineBreak(s[0]) then 0 else 1 + LineEnd(s[1..])
  }

  /** The lines of a text file, without their terminators. A "\r\n" pair
      yields an extra empty line here where Python yields none; an empty line
      splits into no words, so the two agree on every line a reader keeps. */
  function Lines(s: string): (r: seq<string>)
    ensures forall i :: 0 <= i < |r| ==> NoBreak(r[i])
    decreases |s|
  {
    if s == [] then
      []
    else
      var k := LineEnd(s);
      if k == |s| then [s] else [s[..k]] + Lines(s[k + 1..])
  }

  /** "".join(l + "\n" for l in ls). */
  function Terminated(ls: seq<string>): string {
    if ls == [] then [] else ls[0] + "\n" + Terminated(ls[1..])
  }

  /** Reading back lines that were each written with a "\n" terminator gives
      exactly those lines. */
  lemma {:induction false} LinesOfTerminated(ls: seq<string>)
    requires forall i :: 0 <= i < |ls| ==> NoBreak(ls[i])
    ensures Lines(Terminated(ls)) == ls
    decreases |ls|
  {
    if ls != [] {
      var s := Terminated(ls);
      var l := ls[0];
      assert s == l + "\n" + Terminated(ls[1..]);
      assert s[|l|] == '\n';
      assert LineEnd(s) == |l|;
      assert s[..|l|] == l;
      assert s[|l| + 1..] == Terminated(ls[1..]);
      LinesOfTerminated(ls[1..]);
      assert ls == [l] + ls[1..];
    }
  }

  // ---------------------------------------------------------------------------
  // str.lower(), str.endswith(), "in"

  function LowerChar(c: char): char {
    if 'A' <= c <= 'Z' then (c as int + 32) as char else c
  }

  /** ASCII lower-casing: letters A-Z become a-z, every other character is
      kept. */
  function Lower(s: string): (r: string)
    ensures |r| == |s|
    ensures forall i :: 0 <= i < |s| ==> r[i] == LowerChar(s[i])
  {
    seq(|s|, i requires 0 <= i < |s| => LowerChar(s[i]))
  }

  predicate EndsWith(s: string, suffix: string) {
    |suffix| <= |s| && s[|s| - |suffix|..] == suffix
  }

  function ReplaceChar(s: string, from: char, to: char): (r: string)
    ensures |r| == |s|
    ensures forall i :: 0 <= i < |s| ==> r[i] == (if s[i] == from then to else s[i])
  {
    seq(|s|, i requires 0 <= i < |s| => if s[i] == from then to else s[i])
  }

  // ---------------------------------------------------------------------------
  // os.path.basename and os.path.splitext (POSIX)

  /** The index of the last occurrence of `c`, or -1. */
  function LastIndexOf(s: string, c: char): (k: int)
    ensures -1 <= k < |s|
    ensures k >= 0 ==> s[k] == c
    ensures forall i :: k < i < |s| ==> s[i] != c
  {
    if s == [] then -1
    else if s[|s| - 1] == c then |s| - 1
    else LastIndexOf(s[..|s| - 1], c)
  }

  /** os.path.basename: everything after the last '/'. */
  function Basename(p: string): (r: string)
    ensures '/' !in r
    ensures EndsWith(p, r)
  {
    var k := LastIndexOf(p, '/');
    p[k + 1..]
  }

  /** The base name is everything after the last '/': it is the whole path,
      or it is preceded by a '/'. */
  lemma BasenameAfterLastSlash(p: string)
    ensures |Basename(p)| == |p| || p[|p| - |Basename(p)| - 1] == '/'
  {
  }

  /** A path ending in '/' and a name without '/' has that name as its base
      name. */
  lemma BasenameOfJoin(dir: string, name: string)
    requires '/' !in name
    ensures Basename(dir + "/" + name) == name
  {
    var p := dir + "/" + name;
    assert p[|dir|] == '/';
    assert forall i :: |dir| < i < |p| ==> p[i] == name[i - |dir| - 1];
    assert LastIndexOf(p, '/') == |dir|;
    assert p[|dir| + 1..] == name;
  }

  /** The stem of a base name has no '/' either. */
  lemma StemOfBasename(p: string)
    ensures '/' !in Stem(Basename(p)) + ".txt"
  {
    var name := Basename(p);
    var r := Stem(name) + ".txt";
    assert forall i :: 0 <= i < |Stem(name)| ==> r[i] == name[i];
    assert forall i :: |Stem(name)| <= i < |r| ==> r[i] == ".txt"[i - |Stem(name)|];
  }

  predicate AllDots(s: string) {
    forall i :: 0 <= i < |s| ==> s[i] == '.'
  }

  /** os.path.splitext(name)[0] for a name without '/': the text before the
      last dot, unless that dot is only preceded by dots (".bashrc", "..x"),
      in which case the name has no extension. */
  function Stem(name: string): (r: string)
    ensures |r| <= |name| && r == name[..|r|]
    ensures r != name ==> |r| < |name| && name[|r|] == '.' && '.' !in name[|r| + 1..]
    ensures r != name ==> !AllDots(r)
    ensures r == name ==> forall d :: 0 < d < |name| && name[d] == '.' && '.' !in name[d + 1..] ==> AllDots(name[..d])
  {
    var d := LastIndexOf(name, '.');
    if d > 0 && !AllDots(name[..d]) then name[..d] else name
  }

  // ---------------------------------------------------------------------------
  // str(int)

  function DigitChar(d: nat): char
    requires d < 10
  {
    "0123456789"[d]
  }

  function Digits(n: nat): (r: string)
    ensures r != []
    ensures forall i :: 0 <= i < |r| ==> '0' <= r[i] <= '9'
  {
    if n < 10 then [DigitChar(n)] else Digits(n / 10) + [DigitChar(n % 10)]
  }

  /** The decimal text of an integer, as str(n) or "{n}" writes it. */
  function IntText(n: int): (r: string)
    ensures IsWord(r)
  {
    var r := if n < 0 then "-" + Digits(-n) else Digits(n);
    assert forall i :: 0 <= i < |r| ==> !IsSpace(r[i]);
    r
  }
}

=== FILE: wrappers.dfy ===
/** Failure-compatible wrappers shared by the whole model: an optional value
    and a success-or-error result. */
module Wrappers {

  datatype Option<+T> = None | Some(value: T) {

    predicate IsFailure() {
      None?
    }

    function PropagateFailure<U>(): Option<U>
      requires None?
    {
      None
    }

    function Extract(): T
      requires Some?
    {
      value
    }
  }

  /** The outcome of an operation that either yields a value or raises. */
  datatype Result<+T, +E> = Ok(value: T) | Err(error: E) {

    predicate IsFailure() {
      Err?
    }

    function PropagateFailure<U>(): Result<U, E>
      requires Err?
    {
      Err(error)
    }

    function Extract(): T
      requires Ok?
    {
      value
    }
  }
}
